=== FILE: README.md ===
# MyVision front end, modelled in Dafny

This project models the logic of the MyVision website's browser code. Three pieces are covered:

- **The one-time-code page** (`verify-otp.js`). It is a state machine with six cells, a focused cell, a verify button, a resend control with a 30-second countdown, a message area, and the local-storage keys `authToken` and `verifyEmail`. Each DOM handler is a pure transition over a `Widget` value. Network replies arrive as separate `VerifyDone` and `ResendDone` events. Timer firings arrive as `Tick` events.
- **The main page's forms and navigation** (`script.js`):
  - the four appointment-field validators, including the email regular expression given as a language;
  - the `isValid = validateField(…) && isValid` chain, which validates every field;
  - the implicit signup that an appointment submission makes;
  - the signup form, with its password-confirmation gate, and the login form;
  - the page's own `authToken`-only token helpers;
  - `switchView`, anchor clicks and the choice of the first view from the URL hash.
- **The Cognito auth client** (`cognito-auth.js`). Local storage is a `map<string, string>`. Each HTTP exchange is an abstract `Outcome`: `Threw` (either `fetch` or `response.json()` threw) or `Resp(status, body)`. `response.ok` is derived from the status, 200 to 299, as `fetch` defines it. Each `cognitoAPI` operation returns three things: the record it resolves to, the storage it leaves, and the request it sent.

JSON values are a small datatype (`JsValue.Value`) with JavaScript truthiness. The model also defines the `String(…)` conversion that `localStorage.setItem` and template literals apply. So a login reply without `idToken` stores the text `"undefined"` under `idToken`, as the code does.

Modules: `Optional` (also map lookup), `JsText` (`\s`, `\d`, `trim`), `JsValue`, `WebStorage`, `Http`, `CognitoAuth`, `VerifyOtp`, `SiteForms` and `SiteNav`.

Where the code's own comments and messages promise something else, the model follows the code:

- `getUser` retries after every successful refresh, not just once. See Findings.
- The phone check counts UTF-16 code units (`.length`), not digits, despite its message "Phone must be at least 10 digits". Five emoji pass it (`SiteForms.PhoneCountsCodeUnits`).
- The signup reply stores a token in `script.js` but not in `cognito-auth.js`. Both behaviours are modelled as written: `SiteForms.SubmitSignup` and `CognitoAuth.Signup`.
- A non-digit typed into a cell clears it without re-running `checkIfComplete`. The verify button can therefore stay enabled with an empty cell. Pressing it then only shows the local "Please enter all 6 digits" error: `VerifyOtp.Verify` states that error for any code shorter than six characters, and `VerifyOtp.PressVerifySendsOnlyCompleteCodes` states that no request is sent.
- A failed resend leaves the resend button disabled for good. `VerifyOtp.FailedResendIsFinal` states this.
- A page loaded with a stored token stops its setup at the login check, so the auth modal's handlers, including the login and signup forms, are attached only on a page loaded without a token. See Findings.

## Model

| member | source | states |
|---|---|---|
| `JsText.Trim` | script.js:147 | `trim()` yields a slice of its input that neither starts nor ends with whitespace, and only whitespace is removed |
| `JsText.Utf16Length` | script.js:152 | `.length` counts each character outside the Basic Multilingual Plane twice: it lies between the character count and twice it, and equals the character count exactly when no such character occurs |
| `JsText.Utf16LengthAppend` | script.js:152 | the code-unit length of a concatenation is the sum of the parts' lengths |
| `JsText.TrimEmptyIffAllSpace` | script.js:147 | a value trims to the empty string exactly when every character is whitespace |
| `Optional.Lookup` | cognito-auth.js:85 | reading `data.name`, like `localStorage.getItem(key)`, yields the value when the key is present and nothing (`undefined` or `null`) otherwise |
| `JsValue.OrElse` | verify-otp.js:172 | `data.message \|\| fallback` is the message when it is truthy and the fallback otherwise |
| `JsValue.DecimalRoundTrip` | cognito-auth.js:23-25 | a number stored through `String(…)` is written in decimal digits that read back as the same number |
| `JsValue.SingleDigitRoundTrip` | cognito-auth.js:23-25 | a number below ten is written as one digit that reads back as that number |
| `JsValue.LastDigitRoundTrip` | cognito-auth.js:23-25 | when the leading digits of a number read back correctly, so does the whole number with its last digit appended |
| `JsValue.NumberTextRoundTrip` | cognito-auth.js:23-25 | an integer written through `String(…)` reads back as itself, with a leading '-' for a negative number |
| `JsValue.ToText` | cognito-auth.js:22-26 | `String(v)` of a string is that string, and a missing field becomes `"undefined"` |
| `WebStorage.SetItem` | cognito-auth.js:16 | `setItem` makes the key hold the value and leaves every other key as it was |
| `WebStorage.RemoveItem` | cognito-auth.js:18 | `removeItem` removes the key and leaves every other key as it was |
| `Http.Shape` | cognito-auth.js:52-56 | the returned record has the body's fields, with `status` and `ok` overriding same-named body fields |
| `Http.Uniform` | cognito-auth.js:59-63 | the failure record has exactly the fields `ok`, `status` and `message`, with the given values |
| `CognitoAuth.SetTokens` | cognito-auth.js:22-26 | `setTokens` writes `authToken`, `idToken` and `refreshToken` and changes no other key |
| `CognitoAuth.ClearTokens` | cognito-auth.js:17-21 | `clearToken` removes the three token keys and leaves every other key, such as `verifyEmail`, untouched |
| `CognitoAuth.Settle` | cognito-auth.js:52-64 | a thrown exception becomes `{ok: false, status: 500, message}`; a reply becomes its body with `status` and `ok` set from the response |
| `CognitoAuth.Signup` | cognito-auth.js:41-65 | signup never writes storage, sends one POST to `/auth/cognito-signup`, and never rethrows |
| `CognitoAuth.Login` | cognito-auth.js:73-102 | login stores the token triple exactly when the response is ok and carries a truthy token, and otherwise leaves storage unchanged |
| `CognitoAuth.VerifyEmail` | cognito-auth.js:110-134 | email verification never writes storage and never rethrows |
| `CognitoAuth.ResendCode` | cognito-auth.js:141-165 | resending a code never writes storage and never rethrows |
| `CognitoAuth.Refresh` | cognito-auth.js:211-244 | with no stored refresh token it fails with status 500 and sends nothing; on an ok reply with a token it replaces the access and id tokens; it never changes the stored refresh token; an ok result implies a request was sent |
| `CognitoAuth.Logout` | cognito-auth.js:250-281 | logout clears the three tokens on every path, leaves other keys alone, and reports a thrown exception as `ok: true, status: 200` |
| `CognitoAuth.ThrownBecomesFailure` | cognito-auth.js:41-244 | each of signup, login, verifyEmail, resendCode and refreshToken turns a thrown exception into a non-ok status-500 record with a message |
| `CognitoAuth.LoginStoresExampleTokens` | cognito-auth.js:85-87 | the login reply `{token: "abc", idToken: "x", refreshToken: "y"}` leaves exactly those three values under their keys |
| `CognitoAuth.GetUser` | cognito-auth.js:171-205 | without a token, getUser fails with no request; every settled call sends at most one request per response; only the access and id tokens can change, and the refresh token never does |
| `CognitoAuth.GetUserFirstExchange` | cognito-auth.js:173-198 | a transport failure, an ok reply, and a non-401 failure each settle at once. A 401 whose refresh does not report ok throws the reply's message or "Failed to get user". |
| `CognitoAuth.GetUserNeverSettles` | cognito-auth.js:188-196 | when the server answers every user request with 401 and every refresh with a token, the call is still unsettled after any number of replies |
| `CognitoAuth.RelentlessRound` | cognito-auth.js:188-194 | one round of 401 and new token costs getUser two requests and leaves it where the remaining rounds on the refreshed store leave it |
| `CognitoAuth.RetryAfterRefresh` | cognito-auth.js:188-194 | after a 401 with any body, a refresh that reports ok restarts getUser on the refreshed store: the call ends with that restart's result and storage, and its requests are the user request, the refresh request, then the restart's requests |
| `CognitoAuth.RefreshIssuesToken` | cognito-auth.js:211-235 | with a refresh token stored, any ok reply whose `token` is truthy with non-empty text makes the refresh report ok and leaves both the access and the refresh token stored |
| `CognitoAuth.GetUserOnce` | cognito-auth.js:188-197 | with the retry bounded to one, getUser sends at most three requests and settles once it has three replies |
| `CognitoAuth.FetchUser` | cognito-auth.js:173-200 | one user request with an optional single refresh-and-retry, bounded in requests and preserving the refresh token |
| `CognitoAuth.RefreshIntervalMs` | cognito-auth.js:289-291 | the refresh period plus the 5-minute lead equals the 60-minute session, which is 3,300,000 ms |
| `CognitoAuth.ArmAutoRefresh` | cognito-auth.js:309-311 | the auto-refresh interval is set up exactly when a non-empty token is stored at load, with the period that ends 5 minutes before the 60-minute session does |
| `CognitoAuth.AutoRefreshTick` | cognito-auth.js:293-305 | without a token a firing does nothing; with one, the page reloads exactly when the refresh does not report ok, and then every token is cleared; without a reload the refresh token is kept |
| `VerifyOtp.CheckIfComplete` | verify-otp.js:82-85 | the verify button is enabled exactly when no cell is empty, and nothing else changes |
| `VerifyOtp.OtpValue` | verify-otp.js:88-90 | the code value is the six cells' values joined in cell order, first to last |
| `VerifyOtp.ConcatOfSingles` | verify-otp.js:88-90 | joining cells of at most one character gives six characters exactly when every cell is filled, and then they are the cells' characters in order |
| `VerifyOtp.CompleteIffSixCharacters` | verify-otp.js:88-90 | with well-formed cells, the code value has length 6 exactly when all cells are filled, and then it is six digits in cell order |
| `VerifyOtp.ShowError` | verify-otp.js:102-109 | the message is shown, the success message hidden, and nothing else changes |
| `VerifyOtp.ClearOtp` | verify-otp.js:93-99 | every cell is emptied and the first cell focused, and nothing else changes |
| `VerifyOtp.OnInput` | verify-otp.js:27-47 | A non-empty value that is not one digit clears that cell, and nothing else changes. A digit in cell i is stored, the error is hidden, and focus moves to i+1, or stays put in cell 5. An emptied cell disables verify and hides the error. No other cell changes, and nothing besides the cells, focus, error and verify button changes. |
| `VerifyOtp.OnKeyDown` | verify-otp.js:50-61 | Backspace on an empty cell i > 0 focuses i-1. The arrow keys move focus by one within 0..5. No key changes a cell or anything besides focus. |
| `VerifyOtp.OnPaste` | verify-otp.js:64-78 | text that trims to six digits sets cell i to character i, focuses cell 5, enables verify, and the code value equals the trimmed text; any other paste changes nothing |
| `VerifyOtp.Verify` | verify-otp.js:126-149 | a code not six characters long shows "Please enter all 6 digits" and sends nothing; otherwise the button is disabled, the spinner shown, the code sent with the email, and nothing else changes |
| `VerifyOtp.PressVerify` | verify-otp.js:253-261 | a click or Enter does nothing while the verify button is disabled |
| `VerifyOtp.PressVerifySendsOnlyCompleteCodes` | verify-otp.js:126-132 | with well-formed cells, a request is sent exactly when the button is enabled and every cell is filled, and it carries the six digits |
| `VerifyOtp.FinishVerify` | verify-otp.js:151-185 | The button is always re-enabled and the spinner hidden. On a server error or exception, all cells are emptied, cell 0 is focused, and storage is untouched; the message is the server's `message` when truthy, else "Invalid OTP. Please try again.", or "Network error. Please try again." for an exception. On success, the success message is shown and the error hidden, a redirect is due, `authToken` is written only if the reply carries a token, `verifyEmail` is removed, and no other key changes. Neither path changes anything else: a failure leaves the resend control and storage alone, a success leaves the cells, focus and resend control alone. |
| `VerifyOtp.RetryAfterFailedVerifyIsLocal` | verify-otp.js:170-185 | after a failed verification the button is enabled, and pressing it sends nothing and shows the local length error |
| `VerifyOtp.PressResend` | verify-otp.js:189-201 | only a ready resend button reacts; it becomes disabled and the resend request is sent |
| `VerifyOtp.StartResendTimer` | verify-otp.js:231-237 | starting the timer hides the resend control with the count at 30 and changes nothing else |
| `VerifyOtp.FinishResend` | verify-otp.js:203-227 | A successful resend hides the error, empties the cells, and starts the 30-tick countdown. A failed resend shows the server's `message` when truthy, else "Failed to resend code. Please try again.", or "Network error. Please try again." for an exception; it starts no countdown and leaves the button disabled. Neither path changes anything besides the resend control, the messages and, on success, the cells and focus. |
| `VerifyOtp.ResendFailed` | verify-otp.js:220-227 | a failed resend shows its message, hides the success message, disables the button, and changes nothing else |
| `VerifyOtp.OnTick` | verify-otp.js:239-249 | a tick decrements the count of a running countdown; on reaching zero the timer stops and the button is shown and enabled; without a countdown a tick changes nothing |
| `VerifyOtp.CountdownSteps` | verify-otp.js:239-249 | from a count of n, k < n ticks leave the count at n - k, and tick n makes the button ready, with nothing else changed |
| `VerifyOtp.CountdownLastsThirtyTicks` | verify-otp.js:231-249 | the count is 30 - k after k < 30 ticks, is ready after exactly 30, and a 31st tick does nothing |
| `VerifyOtp.Apply` | verify-otp.js:25-79 | only the verify click, Enter and the resend click ever send a request |
| `VerifyOtp.ApplyPreservesWellFormed` | verify-otp.js:27-78 | every event keeps each cell empty or a single digit |
| `VerifyOtp.InputKeepsWellFormed` | verify-otp.js:27-47 | an input event leaves every cell empty or a single digit, whatever the typed value |
| `VerifyOtp.PasteKeepsWellFormed` | verify-otp.js:64-78 | a paste leaves every cell empty or a single digit, whatever was pasted |
| `VerifyOtp.FailedResendIsFinal` | verify-otp.js:220-227 | once a resend has failed, no event makes the resend button usable again |
| `VerifyOtp.TypeDigitsFills` | verify-otp.js:41-43 | typing k digits from focus f fills cells f..f+k-1 with them in order, leaves other cells alone, and stops focus at the last cell |
| `VerifyOtp.TypeOneDigit` | verify-otp.js:27-46 | one typed digit lands in the focused cell, focus moves to the next cell unless it is the last, and verify is enabled exactly when all cells are filled |
| `VerifyOtp.TypingSixDigitsCompletes` | verify-otp.js:27-47 | typing six digits from the first cell enables verify, focuses cell 5, and yields exactly those digits as the code |
| `VerifyOtp.UserEmail` | verify-otp.js:6 | the email is the non-empty URL parameter, else the stored `verifyEmail`, else "your email" |
| `VerifyOtp.Load` | verify-otp.js:263-267 | The page loads with empty cells and the first cell focused. The countdown starts only when the session flag was not yet set, and the flag is set afterwards. The verify button is as the markup sets it, no message or spinner is shown, and no redirect is due. |
| `SiteForms.SetToken` | script.js:6 | this page's `setToken` writes `authToken` and nothing else |
| `SiteForms.ClearToken` | script.js:7 | this page's `clearToken` removes `authToken` and nothing else |
| `SiteForms.ClearTokenKeepsOtherTokens` | script.js:7 | unlike the auth client's `clearToken`, this page's leaves the id and refresh tokens in storage |
| `SiteForms.PhoneCountsCodeUnits` | script.js:152 | five characters outside the Basic Multilingual Plane, ten code units, pass the phone check |
| `SiteForms.PhoneNeedsTenDigits` | script.js:152 | ten digits pass the phone check and nine fail |
| `SiteForms.NameValid` | script.js:147 | a name is valid exactly when it contains a non-whitespace character |
| `SiteForms.EmailValid` | script.js:149-150 | the email check accepts a value exactly when its trimmed text matches `^[^\s@]+@[^\s@]+\.[^\s@]+$` |
| `SiteForms.PhoneValid` | script.js:152 | a phone number that trims to ten characters or more passes and one that trims to fewer than five fails; when no character lies outside the Basic Multilingual Plane it passes exactly when the trimmed text has ten characters or more |
| `SiteForms.MessageValid` | script.js:154 | a message is valid exactly when it contains a non-whitespace character |
| `SiteForms.IndexOf` | script.js:149-150 | the position found is the first '@', or the length when there is none |
| `SiteForms.OnlyAt` | script.js:149-150 | with exactly one '@', no other position holds '@' |
| `SiteForms.SingleAt` | script.js:149-150 | conversely, a string with '@' at one position and nowhere else counts exactly one '@', and that position is the first '@' |
| `SiteForms.PatternHasShape` | script.js:149-150 | a string in the email pattern's language has no whitespace, exactly one '@', a non-empty local part, and a domain with an inner '.' |
| `SiteForms.ShapeMatchesPattern` | script.js:149-150 | a string with that structure is in the email pattern's language |
| `SiteForms.EmailShapeIffPattern` | script.js:149-150 | the structure holds exactly when the string matches the email pattern |
| `SiteForms.RunChecks` | script.js:130-154 | every check in the chain sets its field's state from its own condition, even after an earlier failure; the result is valid iff all pass |
| `SiteForms.ValidateAppointment` | script.js:147-154 | the four fields (the phone measured in UTF-16 code units) are flagged with their own messages exactly when their own check fails, and the form is valid iff all four pass |
| `SiteForms.IncludesThrows` | script.js:176 | `message.includes(…)` throws exactly for a truthy message that is a number, boolean or object; strings, arrays and falsy messages do not throw |
| `SiteForms.SubmitAppointment` | script.js:156-200 | An invalid form sends nothing, shows no popup, and is not reset. A valid one sends the signup and, on every outcome including an exception, shows a popup and resets the form. A returned token is stored under `authToken` only, and without one storage is unchanged. A tokenless reply whose message makes `includes` throw shows "Message Received!", like an exception; any other tokenless reply shows "Appointment Confirmed!". |
| `SiteForms.EmptyNameBlocks` | script.js:147 | an empty name flags "Name is required" and sends nothing |
| `SiteForms.AuthAttempt` | script.js:352-380 | the submit button is disabled while the request is outstanding and re-enabled however it settles; a truthy token is stored and reported as success; a reply without one shows its message or the fallback; an exception shows the fixed failure text |
| `SiteForms.SubmitSignup` | script.js:334-381 | mismatched passwords show "Passwords do not match!", send nothing and leave the submit button as it was; otherwise the button is disabled during the request and enabled after; the auth button switches to Logout only for a token-bearing reply. A truthy token is stored under `authToken` with "Account created successfully!"; a reply without one shows its message or "Signup failed"; an exception shows "Signup failed. Please try again."; without a login storage is unchanged |
| `SiteForms.SubmitLogin` | script.js:289-328 | login sends its request with the button disabled until it settles, and switches the auth button to Logout only for a token-bearing reply. A truthy token is stored under `authToken` with "Login successful!"; a reply without one shows its message or "Login failed"; an exception shows "Login failed. Please check your credentials."; without a login storage is unchanged |
| `SiteForms.LogoutClick` | script.js:230-235 | the Logout button removes only `authToken` |
| `SiteForms.UpdateAuthButton` | script.js:227-243 | before `authBtn`'s declaration has run the call throws; after it, the button becomes "Logout" exactly when logged in |
| `SiteForms.FinishSetup` | script.js:204-221 | as written, the setup completes and wires the auth modal exactly when no token is stored at load; the user check is never sent and the button keeps its markup |
| `SiteForms.FinishSetupDeclaredFirst` | script.js:204-221 | with `authBtn` declared first, the setup always completes and wires the modal; a stored token shows "Logout" and sends the user check with that token |
| `SiteForms.StoredTokenLeavesModalUnwired` | script.js:204-221 | the stored token "t" leaves the modal unwired as written and wired when corrected; an empty store wires it |
| `SiteNav.FindFrom` | script.js:87 | the result is the first element at or after the start with that id, or none when no such element exists |
| `SiteNav.Select` | script.js:87 | a selector starting with '#' selects the first element in document order whose id is the rest of the selector, and nothing when there is none |
| `SiteNav.SwitchView` | script.js:82-99 | no section other than the selected target is active, the target is active, other elements keep their state, and a nav link is active iff its href equals the target |
| `SiteNav.SwitchViewIdempotent` | script.js:82-99 | switching to the same target twice is the same as switching once |
| `SiteNav.SwitchToSectionLeavesOne` | script.js:82-99 | when the target is a section, it is the only active section afterwards |
| `SiteNav.AnchorClick` | script.js:101-109 | an href that is missing, empty or '#' changes nothing; any other href switches to it |
| `SiteNav.InitialView` | script.js:111-116 | When the URL hash selects an element, that element is active, no other section is, and exactly the nav links whose href is the hash are active. Otherwise the same holds for `#home`: the element it selects, if any, becomes active. Elements outside the sections that were active stay active either way. |

## Left out

- Styling and visibility are not modelled: CSS classes on cells and inputs, border colours, the verify and resend buttons' labels, the "Code Sent" text, popups' body text, the hamburger menu, the auth modal's opening, closing and tabs (script.js:61-77, 219-284), and the team modal (script.js:409-429). These are presentation only. Only the flags that the stated properties need are kept.
- Real `fetch`, headers and JSON parsing are not modelled. Each exchange is an outcome value, and a body is a JSON object. Non-object JSON bodies and non-integer numbers are not modelled.
- JsValue.ToText: numbers are unbounded integers printed in plain decimal, whereas JavaScript numbers are doubles and `String(…)` prints a magnitude of 10^21 or more in exponent form ("1e+21"). Token fields are strings in practice, and the model does not reproduce double formatting.
- JsValue.DecimalRoundTrip: the round trip is stated for unbounded integers; integers beyond 2^53 are already rounded by `response.json()`, which the model does not reproduce.
- Wall-clock time is not modelled: the 2-second redirect, the 2-second text restore, the 1.5-second modal close, and the length of the countdown and auto-refresh intervals. The countdown is modelled as discrete ticks. Auto-refresh is modelled as a single firing (`CognitoAuth.AutoRefreshTick`).
- Page navigation is not modelled: `window.location` redirects and reloads (only a `reload` flag is kept), and `URLSearchParams` (the email parameter is an input to `VerifyOtp.Load`).
- The random part of the appointment's temporary password (script.js:165) is a parameter, because `Math.random` is nondeterministic and floating point.
- Of the page's duplicate `api` client (script.js:10-58), only the requests it sends are modelled. `uploadFile` is never called on the page. The reply to the user check at load (script.js:210-216, which would call `clearToken` and `updateAuthButton(false)` on failure) is left out: as written that call is never reached (see Findings), and with the correction it settles asynchronously after setup.
- The auth button's own click listener, the modal's close and tab handlers (script.js:245-284) are not modelled beyond whether the setup attaches them (`SiteForms.Setup.modalWired`).
- SiteNav.Select: a selector starting with '#' is read as an id selector whose id is all the rest, so compound selectors such as `#home .x` are not parsed as CSS (the model looks up the id `home .x`). A selector without a leading '#' selects nothing, and selectors that make `querySelector` throw are not modelled. The scroll reset in `switchView` is also left out.
- The initial enablement of the verify and resend buttons is set by page markup that is not part of this model. The verify button's state is a parameter of `VerifyOtp.Load`, and the resend button is taken to start enabled.
- Focus moved by the user (clicking or tabbing into a cell) is not modelled. Each cell event names the cell it happened in.
- Overlapping verification requests are not modelled separately. The spinner is one flag that the first reply to settle clears.
- Console logging and the `module.exports` shim are left out.

## Findings

| source | as written | input that shows it | evidently intended | confidence | as-written member | corrected member |
|---|---|---|---|---|---|---|
| cognito-auth.js:188-197 | After a 401, `getUser` calls itself again whenever the refresh reports ok, with no bound on the number of rounds. | A server that answers every `GET /cognito-user` with 401 and every refresh with 200 and a token. | One transparent refresh-and-retry, as the comment "Retry with new token" describes; a second 401 should be thrown. | medium, not executed | `CognitoAuth.GetUserNeverSettles` | `CognitoAuth.GetUserOnce` |
| script.js:204-221 | With a token stored at load, `updateAuthButton(true)` (line 208) writes `authBtn` before its `const` declaration (line 221) has run. That throws a ReferenceError, which ends the `DOMContentLoaded` handler: the user check is not sent and the auth modal, login, signup and auth-button handlers are never attached. | Any non-empty `authToken` in local storage when the page loads, e.g. "t". | The button shows "Logout", the user check is sent, and the rest of the page is wired, as it is on a page loaded without a token. | medium, not executed | `SiteForms.FinishSetup` | `SiteForms.FinishSetupDeclaredFirst` |

=== FILE: cognito_auth.dfy ===
/** The Cognito auth client (`cognito-auth.js`): the token triple in local
    storage and the `cognitoAPI` operations, each taking the outcome of its HTTP
    exchange as a parameter and returning the record it resolves to, the storage
    it leaves behind and the request it sent. */
module CognitoAuth {
  import opened Optional
  import opened JsValue
  import opened WebStorage
  import opened Http

  const IdTokenKey := "idToken"
  const RefreshTokenKey := "refreshToken"

  /** The three keys the session token set lives under. */
  const TokenKeys: set<string> := {AuthTokenKey, IdTokenKey, RefreshTokenKey}

  /** `setTokens(access, id, refresh)`: writes the three token keys and nothing else. */
  function SetTokens(st: Store, access: string, id: string, refresh: string): (r: Store)
    ensures GetItem(r, AuthTokenKey) == Some(access)
    ensures GetItem(r, IdTokenKey) == Some(id)
    ensures GetItem(r, RefreshTokenKey) == Some(refresh)
    ensures SameOutside(r, st, TokenKeys)
  {
    SetItem(SetItem(SetItem(st, AuthTokenKey, access), IdTokenKey, id), RefreshTokenKey, refresh)
  }

  /** `clearToken()`: removes the three token keys and nothing else. */
  function ClearTokens(st: Store): (r: Store)
    ensures forall k :: k in TokenKeys ==> GetItem(r, k) == None
    ensures SameOutside(r, st, TokenKeys)
  {
    RemoveItem(RemoveItem(RemoveItem(st, AuthTokenKey), IdTokenKey), RefreshTokenKey)
  }

  /** What an operation resolves to, the storage afterwards, and the request
      it sent (none when it gave up before calling `fetch`). */
  datatype Reply = Reply(result: Record, store: Store, sent: Option<Request>)

  /** The result of a `try { … return {...data, status, ok} } catch { return {ok: false,
      status: 500, message} }` block: the shaped body, or the uniform failure record. */
  function Settle(o: Outcome, failure: string): (r: Record)
    ensures o.Threw? ==> r.Keys == {"ok", "status", "message"}
    ensures o.Threw? ==> Field(r, "ok") == Some(Bool(false)) && Field(r, "status") == Some(Num(500))
    ensures o.Threw? ==> Field(r, "message") == Some(Str(failure))
    ensures o.Resp? ==> Field(r, "status") == Some(Num(o.status))
    ensures o.Resp? ==> Field(r, "ok") == Some(Bool(IsOk(o.status)))
    ensures o.Resp? ==> forall k :: k != "status" && k != "ok" ==> Field(r, k) == Field(o.body, k)
  {
    match o
    case Threw => Uniform(false, 500, failure)
    case Resp(status, body) => Shape(status, body)
  }

  /** The token triple a response body carries, as `setTokens` would store it:
      each field converted with `String(…)`, a missing one becoming `"undefined"`. */
  function TokenText(body: Record, name: string): string {
    ToText(Field(body, name))
  }

  /** The response is ok and carries a truthy `token`. */
  predicate IssuesToken(o: Outcome) {
    o.Resp? && IsOk(o.status) && Truthy(Field(o.body, "token"))
  }

  /** `cognitoAPI.signup`: never touches storage. */
  function Signup(st: Store, email: string, password: string, o: Outcome): (r: Reply)
    ensures r.store == st
    ensures r.result == Settle(o, "Network error during signup")
    ensures r.sent == Some(PostJson("/auth/cognito-signup", map["email" := Str(email), "password" := Str(password)]))
  {
    Reply(Settle(o, "Network error during signup"), st,
          Some(PostJson("/auth/cognito-signup", map["email" := Str(email), "password" := Str(password)])))
  }

  /** `cognitoAPI.login`: stores the token triple exactly when the response is
      ok and carries a token; otherwise storage is untouched. */
  function Login(st: Store, email: string, password: string, o: Outcome): (r: Reply)
    ensures IssuesToken(o) ==> GetItem(r.store, AuthTokenKey) == Some(TokenText(o.body, "token"))
    ensures IssuesToken(o) ==> GetItem(r.store, IdTokenKey) == Some(TokenText(o.body, "idToken"))
    ensures IssuesToken(o) ==> GetItem(r.store, RefreshTokenKey) == Some(TokenText(o.body, "refreshToken"))
    ensures !IssuesToken(o) ==> r.store == st
    ensures SameOutside(r.store, st, TokenKeys)
    ensures r.result == Settle(o, "Network error during login")
    ensures r.sent.Some?
  {
    var store :=
      if IssuesToken(o)
      then SetTokens(st, TokenText(o.body, "token"), TokenText(o.body, "idToken"), TokenText(o.body, "refreshToken"))
      else st;
    Reply(Settle(o, "Network error during login"), store,
          Some(PostJson("/auth/cognito-login", map["email" := Str(email), "password" := Str(password)])))
  }

  /** `cognitoAPI.verifyEmail`: never touches storage. */
  function VerifyEmail(st: Store, email: string, otp: string, o: Outcome): (r: Reply)
    ensures r.store == st
    ensures r.result == Settle(o, "Network error during verification")
    ensures r.sent.Some? && r.sent.value.path == "/auth/cognito-verify-email"
  {
    Reply(Settle(o, "Network error during verification"), st,
          Some(PostJson("/auth/cognito-verify-email", map["email" := Str(email), "otp" := Str(otp)])))
  }

  /** `cognitoAPI.resendCode`: never touches storage. */
  function ResendCode(st: Store, email: string, o: Outcome): (r: Reply)
    ensures r.store == st
    ensures r.result == Settle(o, "Network error while resending code")
    ensures r.sent.Some? && r.sent.value.path == "/auth/cognito-resend-code"
  {
    Reply(Settle(o, "Network error while resending code"), st,
          Some(PostJson("/auth/cognito-resend-code", map["email" := Str(email)])))
  }

  function RefreshRequest(refreshToken: string): Request {
    PostJson("/auth/cognito-refresh-token", map["refreshToken" := Str(refreshToken)])
  }

  /** `cognitoAPI.refreshToken`: without a stored refresh token it fails with
      status 500 and sends nothing; on an ok response with a token it replaces the
      access and id tokens; the stored refresh token is never changed. */
  function Refresh(st: Store, o: Outcome): (r: Reply)
    ensures !HasItem(st, RefreshTokenKey) ==> r.sent == None && r.store == st
    ensures !HasItem(st, RefreshTokenKey) ==>
              Field(r.result, "status") == Some(Num(500)) && Field(r.result, "ok") == Some(Bool(false))
    ensures HasItem(st, RefreshTokenKey) ==> r.sent == Some(RefreshRequest(st[RefreshTokenKey]))
    ensures HasItem(st, RefreshTokenKey) ==> r.result == Settle(o, "Failed to refresh token")
    ensures HasItem(st, RefreshTokenKey) && IssuesToken(o) ==>
              GetItem(r.store, AuthTokenKey) == Some(TokenText(o.body, "token")) &&
              GetItem(r.store, IdTokenKey) == Some(TokenText(o.body, "idToken"))
    ensures !(HasItem(st, RefreshTokenKey) && IssuesToken(o)) ==> r.store == st
    ensures GetItem(r.store, RefreshTokenKey) == GetItem(st, RefreshTokenKey)
    ensures SameOutside(r.store, st, {AuthTokenKey, IdTokenKey})
    ensures ReportsOk(r.result) ==> r.sent.Some?
  {
    if !HasItem(st, RefreshTokenKey) then
      Reply(Uniform(false, 500, "Failed to refresh token"), st, None)
    else
      var refreshToken := st[RefreshTokenKey];
      var store :=
        if IssuesToken(o)
        then SetTokens(st, TokenText(o.body, "token"), TokenText(o.body, "idToken"), refreshToken)
        else st;
      Reply(Settle(o, "Failed to refresh token"), store, Some(RefreshRequest(refreshToken)))
  }

  /** `cognitoAPI.logout`: clears the three tokens on every path, and reports a
      thrown exception as a successful logout. */
  function Logout(st: Store, o: Outcome): (r: Reply)
    ensures forall k :: k in TokenKeys ==> GetItem(r.store, k) == None
    ensures SameOutside(r.store, st, TokenKeys)
    ensures o.Threw? ==> Field(r.result, "ok") == Some(Bool(true)) && Field(r.result, "status") == Some(Num(200))
    ensures o.Resp? ==> r.result == Shape(o.status, o.body)
    ensures r.sent.Some? && r.sent.value.authorization == Some(Bearer(GetItem(st, AuthTokenKey)))
  {
    var sent := Request(Post, "/auth/cognito-logout", Some(Bearer(GetItem(st, AuthTokenKey))), map[]);
    match o
    case Threw => Reply(Uniform(true, 200, "Logged out"), ClearTokens(st), Some(sent))
    case Resp(status, body) => Reply(Shape(status, body), ClearTokens(st), Some(sent))
  }

  /** The five operations that catch: a thrown exception becomes
      `{ok: false, status: 500, message}` and is never rethrown. */
  lemma ThrownBecomesFailure(st: Store, email: string, secret: string)
    ensures var r := Signup(st, email, secret, Threw).result;
              !ReportsOk(r) && Field(r, "status") == Some(Num(500)) && "message" in r
    ensures var r := Login(st, email, secret, Threw).result;
              !ReportsOk(r) && Field(r, "status") == Some(Num(500)) && "message" in r
    ensures var r := VerifyEmail(st, email, secret, Threw).result;
              !ReportsOk(r) && Field(r, "status") == Some(Num(500)) && "message" in r
    ensures var r := ResendCode(st, email, Threw).result;
              !ReportsOk(r) && Field(r, "status") == Some(Num(500)) && "message" in r
    ensures var r := Refresh(st, Threw).result;
              !ReportsOk(r) && Field(r, "status") == Some(Num(500)) && "message" in r
  {
  }

  /** Given the login response `{token: "abc", idToken: "x", refreshToken: "y"}`,
      storage afterwards holds those three values under their keys. */
  lemma LoginStoresExampleTokens(st: Store, email: string, password: string)
    ensures var body := map["token" := Str("abc"), "idToken" := Str("x"), "refreshToken" := Str("y")];
            var r := Login(st, email, password, Resp(200, body));
            GetItem(r.store, AuthTokenKey) == Some("abc") &&
            GetItem(r.store, IdTokenKey) == Some("x") &&
            GetItem(r.store, RefreshTokenKey) == Some("y")
  {
    var body := map["token" := Str("abc"), "idToken" := Str("x"), "refreshToken" := Str("y")];
    assert IssuesToken(Resp(200, body));
  }

  // ---------------------------------------------------------------------------
  // getUser

  /** How `cognitoAPI.getUser` settles: the user object, one of the errors it
      throws, or `Unfinished` when the given responses ran out first. */
  datatype UserResult = UserData(data: Record) | NoToken | Transport | Rejected(message: Value) | Unfinished

  datatype UserCall = UserCall(result: UserResult, store: Store, sent: seq<Request>)

  function UserRequest(st: Store): Request {
    Request(Get, "/cognito-user", Some(Bearer(GetItem(st, AuthTokenKey))), map[])
  }

  function Requests(o: Option<Request>): seq<Request> {
    if o.Some? then [o.value] else []
  }

  /** `cognitoAPI.getUser` as written: the server's responses come from `script`
      in the order the requests are sent. On a 401 it refreshes, and when the
      refresh reports ok it starts over, with no bound on how often. */
  function GetUser(st: Store, script: seq<Outcome>): (r: UserCall)
    ensures !HasItem(st, AuthTokenKey) ==> r == UserCall(NoToken, st, [])
    ensures HasItem(st, AuthTokenKey) ==> |r.sent| >= 1 && r.sent[0] == UserRequest(st)
    ensures r.result != Unfinished ==> |r.sent| <= |script|
    ensures |r.sent| <= |script| + 1
    ensures SameOutside(r.store, st, {AuthTokenKey, IdTokenKey})
    ensures GetItem(r.store, RefreshTokenKey) == GetItem(st, RefreshTokenKey)
    decreases |script|
  {
    if !HasItem(st, AuthTokenKey) then UserCall(NoToken, st, [])
    else if |script| == 0 then UserCall(Unfinished, st, [UserRequest(st)])
    else
      match script[0]
      case Threw => UserCall(Transport, st, [UserRequest(st)])
      case Resp(status, body) =>
        if IsOk(status) then UserCall(UserData(body), st, [UserRequest(st)])
        else if status != 401 then
          UserCall(Rejected(OrElse(Field(body, "message"), "Failed to get user")), st, [UserRequest(st)])
        else if HasItem(st, RefreshTokenKey) && |script| < 2 then
          UserCall(Unfinished, st, [UserRequest(st), RefreshRequest(st[RefreshTokenKey])])
        else
          var needs := HasItem(st, RefreshTokenKey);
          var refreshed := Refresh(st, if needs then script[1] else Threw);
          var sent := [UserRequest(st)] + Requests(refreshed.sent);
          if ReportsOk(refreshed.result) then
            var again := GetUser(refreshed.store, script[2..]);
            UserCall(again.result, again.store, sent + again.sent)
          else
            UserCall(Rejected(OrElse(Field(body, "message"), "Failed to get user")), refreshed.store, sent)
  }

  /** The first exchange decides: no token, a transport failure, an ok response
      and a non-401 failure settle at once; a 401 whose refresh does not report ok
      throws the first response's message. */
  lemma GetUserFirstExchange(st: Store, script: seq<Outcome>)
    requires HasItem(st, AuthTokenKey) && |script| >= 1
    ensures script[0].Threw? ==> GetUser(st, script).result == Transport
    ensures script[0].Resp? && IsOk(script[0].status) ==> GetUser(st, script).result == UserData(script[0].body)
    ensures script[0].Resp? && !IsOk(script[0].status) && script[0].status != 401 ==>
              GetUser(st, script).result == Rejected(OrElse(Field(script[0].body, "message"), "Failed to get user"))
    ensures script[0].Resp? && script[0].status == 401 && !HasItem(st, RefreshTokenKey) ==>
              GetUser(st, script).result == Rejected(OrElse(Field(script[0].body, "message"), "Failed to get user"))
    ensures script[0].Resp? && script[0].status == 401 && HasItem(st, RefreshTokenKey) && |script| >= 2 &&
            !ReportsOk(Refresh(st, script[1]).result) ==>
              GetUser(st, script).result == Rejected(OrElse(Field(script[0].body, "message"), "Failed to get user"))
  {
  }

  /** A server that answers every user request with 401 and every refresh with
      a fresh token keeps `getUser` going for as long as it keeps answering. */
  function Relentless(n: nat): (s: seq<Outcome>)
    ensures |s| == 2 * n
  {
    if n == 0 then [] else [Unauthorized, FreshToken] + Relentless(n - 1)
  }

  /** A bare 401 response. */
  const Unauthorized := Resp(401, map[])

  /** An ok refresh response carrying a new access token. */
  const FreshToken := Resp(200, map["token" := Str("t")])

  /** `n` rounds of 401 and new token leave `getUser` waiting, `2n + 1` requests in. */
  lemma GetUserNeverSettles(st: Store, n: nat)
    requires HasItem(st, AuthTokenKey) && HasItem(st, RefreshTokenKey)
    ensures GetUser(st, Relentless(n)).result == Unfinished
    ensures |GetUser(st, Relentless(n)).sent| == 2 * n + 1
  {
    FreshTokenIssues();
    var k, current := 0, st;
    while k < n
      invariant k <= n
      invariant HasItem(current, AuthTokenKey) && HasItem(current, RefreshTokenKey)
      invariant GetUser(st, Relentless(n)).result == GetUser(current, Relentless(n - k)).result
      invariant |GetUser(st, Relentless(n)).sent| == |GetUser(current, Relentless(n - k)).sent| + 2 * k
    {
      RefreshIssuesToken(current, FreshToken);
      RelentlessRound(current, n - k);
      current, k := Refresh(current, FreshToken).store, k + 1;
    }
    OutOfScript(current);
  }

  /** With a token stored and no response left, `getUser` is still waiting on
      its first request. */
  lemma OutOfScript(st: Store)
    requires HasItem(st, AuthTokenKey)
    ensures GetUser(st, []) == UserCall(Unfinished, st, [UserRequest(st)])
  {
  }

  /** One round of `Relentless` costs `getUser` two requests and leaves it
      where the remaining rounds on the refreshed store leave it. */
  lemma RelentlessRound(st: Store, n: nat)
    requires HasItem(st, AuthTokenKey) && HasItem(st, RefreshTokenKey) && n > 0
    ensures var again := GetUser(Refresh(st, FreshToken).store, Relentless(n - 1));
            var r := GetUser(st, Relentless(n));
            r.result == again.result && |r.sent| == |again.sent| + 2
  {
    RelentlessStep(n);
    FreshTokenIssues();
    RefreshIssuesToken(st, FreshToken);
    RetryAfterRefresh(st, map[], FreshToken, Relentless(n - 1));
  }

  /** Each round of `Relentless` is a 401 followed by a new token. */
  lemma RelentlessStep(n: nat)
    requires n > 0
    ensures Relentless(n) == [Unauthorized, FreshToken] + Relentless(n - 1)
  {
  }

  /** `FreshToken` carries the non-empty token "t". */
  lemma FreshTokenIssues()
    ensures IssuesToken(FreshToken) && ToText(Field(FreshToken.body, "token")) == "t"
  {
  }

  /** A refresh answered ok with a token whose text is not empty reports ok and
      leaves both the access and the refresh token stored. */
  lemma RefreshIssuesToken(st: Store, o: Outcome)
    requires HasItem(st, RefreshTokenKey)
    requires IssuesToken(o) && ToText(Field(o.body, "token")) != ""
    ensures var refreshed := Refresh(st, o);
            ReportsOk(refreshed.result) &&
            HasItem(refreshed.store, AuthTokenKey) && HasItem(refreshed.store, RefreshTokenKey)
  {
  }

  /** After a 401, whatever its body, a refresh that reports ok starts `getUser`
      over on the refreshed store: the user request and the refresh request come
      first, and the rest is the new call's. */
  lemma RetryAfterRefresh(st: Store, body: Record, refreshReply: Outcome, rest: seq<Outcome>)
    requires HasItem(st, AuthTokenKey) && HasItem(st, RefreshTokenKey)
    requires ReportsOk(Refresh(st, refreshReply).result)
    ensures var again := GetUser(Refresh(st, refreshReply).store, rest);
            var r := GetUser(st, [Resp(401, body), refreshReply] + rest);
            && r.result == again.result && r.store == again.store
            && |r.sent| == |again.sent| + 2
            && r.sent[0] == UserRequest(st) && r.sent[1] == RefreshRequest(st[RefreshTokenKey])
            && r.sent[2..] == again.sent
  {
    var refreshed := Refresh(st, refreshReply);
    var again := GetUser(refreshed.store, rest);
    RetryBranch(st, body, refreshReply, rest);
    RefreshSendsOne(st, refreshReply);
    TwoRequestsFirst(GetUser(st, [Resp(401, body), refreshReply] + rest), again,
                     UserRequest(st), RefreshRequest(st[RefreshTokenKey]), Requests(refreshed.sent));
  }

  /** A call that ends as `again` did, after two requests of its own. */
  lemma TwoRequestsFirst(r: UserCall, again: UserCall, first: Request, second: Request, middle: seq<Request>)
    requires middle == [second]
    requires r == UserCall(again.result, again.store, [first] + middle + again.sent)
    ensures r.result == again.result && r.store == again.store
    ensures |r.sent| == |again.sent| + 2
    ensures r.sent[0] == first && r.sent[1] == second && r.sent[2..] == again.sent
  {
    assert r.sent == [first, second] + again.sent;
  }

  /** The branch of `getUser` taken on a 401 whose refresh reports ok. */
  lemma RetryBranch(st: Store, body: Record, refreshReply: Outcome, rest: seq<Outcome>)
    requires HasItem(st, AuthTokenKey) && HasItem(st, RefreshTokenKey)
    requires ReportsOk(Refresh(st, refreshReply).result)
    ensures var refreshed := Refresh(st, refreshReply);
            var again := GetUser(refreshed.store, rest);
            GetUser(st, [Resp(401, body), refreshReply] + rest) ==
              UserCall(again.result, again.store, [UserRequest(st)] + Requests(refreshed.sent) + again.sent)
  {
    var script := [Resp(401, body), refreshReply] + rest;
    assert script[0] == Resp(401, body) && script[1] == refreshReply && script[2..] == rest;
  }

  /** With a refresh token stored, a refresh sends exactly its one request. */
  lemma RefreshSendsOne(st: Store, o: Outcome)
    requires HasItem(st, RefreshTokenKey)
    ensures Requests(Refresh(st, o).sent) == [RefreshRequest(st[RefreshTokenKey])]
  {
  }

  /** `getUser` with the retry bounded to one, as the comment "Retry with new
      token" describes: at most three requests. */
  function GetUserOnce(st: Store, script: seq<Outcome>): (r: UserCall)
    ensures !HasItem(st, AuthTokenKey) ==> r == UserCall(NoToken, st, [])
    ensures |r.sent| <= 3
    ensures |script| >= 3 ==> r.result != Unfinished
    ensures r.result != Unfinished ==> |r.sent| <= |script|
    ensures SameOutside(r.store, st, {AuthTokenKey, IdTokenKey})
    ensures GetItem(r.store, RefreshTokenKey) == GetItem(st, RefreshTokenKey)
  {
    FetchUser(st, script, true)
  }

  /** One user request; on a 401 refresh and try once more if `mayRetry`. */
  function FetchUser(st: Store, script: seq<Outcome>, mayRetry: bool): (r: UserCall)
    ensures !HasItem(st, AuthTokenKey) ==> r == UserCall(NoToken, st, [])
    ensures |r.sent| <= if mayRetry then 3 else 1
    ensures |script| >= (if mayRetry then 3 else 1) ==> r.result != Unfinished
    ensures r.result != Unfinished ==> |r.sent| <= |script|
    ensures SameOutside(r.store, st, {AuthTokenKey, IdTokenKey})
    ensures GetItem(r.store, RefreshTokenKey) == GetItem(st, RefreshTokenKey)
    decreases mayRetry
  {
    if !HasItem(st, AuthTokenKey) then UserCall(NoToken, st, [])
    else if |script| == 0 then UserCall(Unfinished, st, [UserRequest(st)])
    else
      match script[0]
      case Threw => UserCall(Transport, st, [UserRequest(st)])
      case Resp(status, body) =>
        if IsOk(status) then UserCall(UserData(body), st, [UserRequest(st)])
        else if status != 401 || !mayRetry then
          UserCall(Rejected(OrElse(Field(body, "message"), "Failed to get user")), st, [UserRequest(st)])
        else if HasItem(st, RefreshTokenKey) && |script| < 2 then
          UserCall(Unfinished, st, [UserRequest(st), RefreshRequest(st[RefreshTokenKey])])
        else
          var needs := HasItem(st, RefreshTokenKey);
          var refreshed := Refresh(st, if needs then script[1] else Threw);
          var sent := [UserRequest(st)] + Requests(refreshed.sent);
          if ReportsOk(refreshed.result) then
            var again := FetchUser(refreshed.store, script[2..], false);
            UserCall(again.result, again.store, sent + again.sent)
          else
            UserCall(Rejected(OrElse(Field(body, "message"), "Failed to get user")), refreshed.store, sent)
  }

  // ---------------------------------------------------------------------------
  // Auto-refresh

  const SessionMinutes := 60
  const RefreshLeadMinutes := 5

  /** The auto-refresh period: the session lifetime less the lead time, in milliseconds. */
  function RefreshIntervalMs(): (ms: nat)
    ensures ms + RefreshLeadMinutes * 60 * 1000 == SessionMinutes * 60 * 1000
    ensures ms == 3_300_000
  {
    (SessionMinutes - RefreshLeadMinutes) * 60 * 1000
  }

  /** The script's last step: the auto-refresh interval is set up, with its
      period, only when a token is present at load. */
  function ArmAutoRefresh(st: Store): (period: Option<nat>)
    ensures period.Some? <==> GetItem(st, AuthTokenKey).Some? && GetItem(st, AuthTokenKey).value != ""
    ensures period.Some? ==> period.value + RefreshLeadMinutes * 60 * 1000 == SessionMinutes * 60 * 1000
  {
    if HasItem(st, AuthTokenKey) then Some(RefreshIntervalMs()) else None
  }

  datatype TickResult = TickResult(store: Store, sent: seq<Request>, reload: bool)

  /** One firing of the auto-refresh interval: with a token it refreshes, and
      when the refresh does not report ok it logs out and reloads the page. */
  function AutoRefreshTick(st: Store, refreshOutcome: Outcome, logoutOutcome: Outcome): (r: TickResult)
    ensures !HasItem(st, AuthTokenKey) ==> r == TickResult(st, [], false)
    ensures HasItem(st, AuthTokenKey) ==> (r.reload <==> !ReportsOk(Refresh(st, refreshOutcome).result))
    ensures r.reload ==> forall k :: k in TokenKeys ==> GetItem(r.store, k) == None
    ensures !r.reload ==> GetItem(r.store, RefreshTokenKey) == GetItem(st, RefreshTokenKey)
    ensures HasItem(st, AuthTokenKey) && !HasItem(st, RefreshTokenKey) ==> r.reload && |r.sent| == 1
    ensures SameOutside(r.store, st, TokenKeys)
  {
    if !HasItem(st, AuthTokenKey) then TickResult(st, [], false)
    else
      var refreshed := Refresh(st, refreshOutcome);
      if ReportsOk(refreshed.result) then TickResult(refreshed.store, Requests(refreshed.sent), false)
      else
        var out := Logout(refreshed.store, logoutOutcome);
        TickResult(out.store, Requests(refreshed.sent) + Requests(out.sent), true)
  }
}

=== FILE: http.dfy ===
/** One HTTP exchange, seen from the page: the request it sends and the
    abstract outcome of `fetch` followed by `response.json()`. */
module Http {
  import opened Optional
  import opened JsValue

  datatype Method = Get | Post

  /** A request to the API: method, path below the fixed base URL, the
      `Authorization` header text when there is one, and the JSON body. */
  datatype Request = Request(verb: Method, path: string, authorization: Option<string>, body: Record)

  /** A `POST` with a JSON body and no `Authorization` header. */
  function PostJson(path: string, body: Record): Request {
    Request(Post, path, None, body)
  }

  /** The header `Bearer ${token}`: a missing token is interpolated as `null`. */
  function Bearer(token: Option<string>): string {
    "Bearer " + token.GetOr("null")
  }

  /** What awaiting `fetch(…)` and then `response.json()` yields: either one of
      them threw (network failure, unparsable body), or a status and a parsed object. */
  datatype Outcome = Threw | Resp(status: int, body: Record)

  /** `response.ok`: the status is in the range 200 to 299. */
  predicate IsOk(status: int) {
    200 <= status <= 299
  }

  /** `{ ...data, status: response.status, ok: response.ok }`: the body's fields,
      with `status` and `ok` overriding same-named fields of the body. */
  function Shape(status: int, body: Record): (r: Record)
    ensures Field(r, "status") == Some(Num(status))
    ensures Field(r, "ok") == Some(Bool(IsOk(status)))
    ensures forall k :: k != "status" && k != "ok" ==> Field(r, k) == Field(body, k)
  {
    body + map["status" := Num(status), "ok" := Bool(IsOk(status))]
  }

  /** `{ ok, status, message }`: the fixed-shape record the auth client returns
      instead of rethrowing. */
  function Uniform(ok: bool, status: int, message: string): (r: Record)
    ensures r.Keys == {"ok", "status", "message"}
    ensures Field(r, "ok") == Some(Bool(ok))
    ensures Field(r, "status") == Some(Num(status))
    ensures Field(r, "message") == Some(Str(message))
  {
    map["ok" := Bool(ok), "status" := Num(status), "message" := Str(message)]
  }

  /** `result.ok` read back as a condition. */
  predicate ReportsOk(r: Record) {
    Truthy(Field(r, "ok"))
  }
}

=== FILE: js_text.dfy ===
/** The string primitives of the JavaScript runtime that the site relies on:
    the `\s` and `\d` classes of its regular expressions and `String.prototype.trim`. */
module JsText {

  /** A character matched by `\s`, which is exactly the set `trim` removes:
      the WhiteSpace and LineTerminator code points of ECMAScript. */
  predicate IsSpace(c: char) {
    || c == ' ' || c == '\t' || c == '\n' || c == '\r'
    || c == '\U{000B}' || c == '\U{000C}' || c == '\U{00A0}' || c == '\U{1680}'
    || ('\U{2000}' <= c <= '\U{200A}')
    || c == '\U{2028}' || c == '\U{2029}' || c == '\U{202F}' || c == '\U{205F}'
    || c == '\U{3000}' || c == '\U{FEFF}'
  }

  /** A character matched by `\d`: an ASCII decimal digit. */
  predicate IsDigit(c: char) {
    '0' <= c <= '9'
  }

  predicate AllSpace(s: string) {
    forall i :: 0 <= i < |s| ==> IsSpace(s[i])
  }

  predicate AllDigits(s: string) {
    forall i :: 0 <= i < |s| ==> IsDigit(s[i])
  }

  /** `/^\d$/.test(s)`: the whole string is one digit. */
  predicate IsOneDigit(s: string) {
    |s| == 1 && IsDigit(s[0])
  }

  /** `/^\d{6}$/.test(s)`: the whole string is six digits. */
  predicate IsSixDigits(s: string) {
    |s| == 6 && AllDigits(s)
  }

  /** Leading whitespace removed: the longest suffix that does not start with a space. */
  function TrimStart(s: string): (r: string)
    ensures |r| <= |s| && r == s[|s| - |r|..]
    ensures AllSpace(s[..|s| - |r|])
    ensures r == [] || !IsSpace(r[0])
  {
    if |s| > 0 && IsSpace(s[0]) then
      var r := TrimStart(s[1..]);
      assert s[..|s| - |r|] == [s[0]] + s[1..][..|s| - 1 - |r|];
      r
    else s
  }

  /** Trailing whitespace removed: the longest prefix that does not end with a space. */
  function TrimEnd(s: string): (r: string)
    ensures |r| <= |s| && r == s[..|r|]
    ensures AllSpace(s[|r|..])
    ensures r == [] || !IsSpace(r[|r| - 1])
  {
    if |s| > 0 && IsSpace(s[|s| - 1]) then
      var p := s[..|s| - 1];
      var r := TrimEnd(p);
      assert s[|r|..] == p[|r|..] + [s[|s| - 1]];
      r
    else s
  }

  /** `s.trim()`: the infix of `s` left after removing whitespace at both ends. */
  function Trim(s: string): (r: string)
    ensures |r| <= |s|
    ensures r == [] || (!IsSpace(r[0]) && !IsSpace(r[|r| - 1]))
    ensures |r| <= |TrimStart(s)| && r == TrimStart(s)[..|r|]
    ensures AllSpace(TrimStart(s)[|r|..])
  {
    TrimEnd(TrimStart(s))
  }

  /** A string trims to nothing exactly when it is made of whitespace only. */
  lemma {:induction false} TrimEmptyIffAllSpace(s: string)
    ensures Trim(s) == [] <==> AllSpace(s)
  {
    var t := TrimStart(s);
    var k := |s| - |t|;
    if Trim(s) == [] {
      assert AllSpace(t[0..]);
      assert s[..k] == s;
    }
  }

  /** A string that neither starts nor ends with whitespace is its own trim. */
  lemma TrimUnpadded(s: string)
    requires s != [] && !IsSpace(s[0]) && !IsSpace(s[|s| - 1])
    ensures Trim(s) == s
  {
    assert TrimStart(s) == s;
    assert TrimEnd(s) == s;
  }

  /** The UTF-16 code units of one character: two for a character outside the
      Basic Multilingual Plane (a surrogate pair), one otherwise. */
  function CodeUnits(c: char): nat {
    if c as int < 0x1_0000 then 1 else 2
  }

  /** `s.length`: the number of UTF-16 code units, which is the number of
      characters only when none lies outside the Basic Multilingual Plane. */
  function Utf16Length(s: string): (n: nat)
    ensures |s| <= n <= 2 * |s|
    ensures n == |s| <==> forall i :: 0 <= i < |s| ==> s[i] as int < 0x1_0000
    decreases |s|
  {
    if s == [] then 0
    else
      var p := s[..|s| - 1];
      var n := Utf16Length(p) + CodeUnits(s[|s| - 1]);
      assert forall i :: 0 <= i < |p| ==> p[i] == s[i];
      n
  }

  /** The length of a concatenation is the sum of the lengths. */
  lemma {:induction false} Utf16LengthAppend(a: string, b: string)
    ensures Utf16Length(a + b) == Utf16Length(a) + Utf16Length(b)
    decreases |b|
  {
    if b == [] {
      assert a + b == a;
    } else {
      var b' := b[..|b| - 1];
      assert (a + b)[..|a + b| - 1] == a + b';
      Utf16LengthAppend(a, b');
    }
  }
}

=== FILE: js_value.dfy ===
/** Parsed JSON response bodies as the site's code sees them: values, their
    JavaScript truthiness, and the `String(v)` conversion that `localStorage.setItem`
    and template literals apply. */
module JsValue {
  import opened Optional

  /** A JSON value. Numbers are integers here; `Arr` carries the text that
      `String(array)` produces for it (the elements joined with commas). */
  datatype Value = Null | Bool(b: bool) | Num(n: int) | Str(s: string) | Arr(text: string) | Obj

  /** A parsed JSON object: field name to value. */
  type Record = map<string, Value>

  /** `data.name`: the field, or nothing (`undefined`) when the object lacks it. */
  function Field(data: Record, name: string): Option<Value> {
    Lookup(data, name)
  }

  /** JavaScript truthiness of a looked-up value; `undefined` is falsy. */
  predicate Truthy(v: Option<Value>) {
    match v
    case None => false
    case Some(Null) => false
    case Some(Bool(b)) => b
    case Some(Num(n)) => n != 0
    case Some(Str(s)) => s != ""
    case Some(Arr(_)) => true
    case Some(Obj) => true
  }

  /** `a || b` where `b` is a string: `a` itself when it is truthy, else `b`. */
  function OrElse(v: Option<Value>, fallback: string): (r: Value)
    ensures Truthy(v) ==> r == v.value
    ensures !Truthy(v) ==> r == Str(fallback)
  {
    if Truthy(v) then v.value else Str(fallback)
  }

  function DigitChar(d: nat): (c: char)
    requires d < 10
  {
    ('0' as int + d) as char
  }

  function DigitValue(c: char): nat {
    if '0' <= c <= '9' then (c as int - '0' as int) as nat else 0
  }

  /** The decimal digits of `n`, most significant first, without leading zeros. */
  function Decimal(n: nat): (r: string)
    ensures |r| >= 1
    ensures forall i :: 0 <= i < |r| ==> '0' <= r[i] <= '9'
    ensures |r| > 1 ==> r[0] != '0'
    decreases n
  {
    (if n < 10 then "" else Decimal(n / 10)) + [DigitChar(n % 10)]
  }

  /** Reads a string of decimal digits back as a number. */
  function DecimalValue(s: string): nat
    decreases |s|
  {
    if s == [] then 0 else DecimalValue(s[..|s| - 1]) * 10 + DigitValue(s[|s| - 1])
  }

  lemma DigitRoundTrip(d: nat)
    requires d < 10
    ensures DigitValue(DigitChar(d)) == d
  {
  }

  /** Appending a digit multiplies the value read so far by ten and adds it. */
  lemma DecimalValueSnoc(p: string, c: char)
    ensures DecimalValue(p + [c]) == DecimalValue(p) * 10 + DigitValue(c)
  {
    assert (p + [c])[..|p|] == p;
  }

  /** The last digit of `Decimal(n)` is `n % 10`, after the digits of `n / 10`. */
  lemma DecimalSnoc(n: nat)
    ensures n < 10 ==> Decimal(n) == [DigitChar(n % 10)]
    ensures n >= 10 ==> Decimal(n) == Decimal(n / 10) + [DigitChar(n % 10)]
  {
  }

  /** Printing a number in decimal and reading it back gives the number. */
  lemma {:induction false} DecimalRoundTrip(n: nat)
    ensures DecimalValue(Decimal(n)) == n
    decreases n
  {
    if n < 10 {
      SingleDigitRoundTrip(n);
    } else {
      DecimalRoundTrip(n / 10);
      LastDigitRoundTrip(n);
    }
  }

  /** The base case: a single digit reads back as itself. */
  lemma SingleDigitRoundTrip(n: nat)
    requires n < 10
    ensures DecimalValue(Decimal(n)) == n
  {
    DecimalSnoc(n);
    DigitRoundTrip(n);
    DecimalValueSnoc([], DigitChar(n));
    assert [] + [DigitChar(n)] == Decimal(n);
  }

  /** The step: when the leading digits read back, so does the whole number. */
  lemma LastDigitRoundTrip(n: nat)
    requires n >= 10 && DecimalValue(Decimal(n / 10)) == n / 10
    ensures DecimalValue(Decimal(n)) == n
  {
    var q, m := n / 10, n % 10;
    DecimalSnoc(n);
    DecimalValueSnoc(Decimal(q), DigitChar(m));
    DigitRoundTrip(m);
    assert DecimalValue(Decimal(n)) == q * 10 + m;
  }

  /** `String(v)`, with `undefined` for a missing field. */
  function ToText(v: Option<Value>): (r: string)
    ensures v.Some? && v.value.Str? ==> r == v.value.s
    ensures v.None? ==> r == "undefined"
  {
    match v
    case None => "undefined"
    case Some(Null) => "null"
    case Some(Bool(b)) => if b then "true" else "false"
    case Some(Num(n)) => if n < 0 then "-" + Decimal(-n) else Decimal(n)
    case Some(Str(s)) => s
    case Some(Arr(text)) => text
    case Some(Obj) => "[object Object]"
  }

  /** Numbers convert to text that reads back as the same number. */
  lemma NumberTextRoundTrip(n: int)
    ensures n >= 0 ==> DecimalValue(ToText(Some(Num(n)))) == n
    ensures n < 0 ==> ToText(Some(Num(n)))[0] == '-' && DecimalValue(ToText(Some(Num(n)))[1..]) == -n
  {
    var t := ToText(Some(Num(n)));
    if n >= 0 {
      assert t == Decimal(n);
      DecimalRoundTrip(n);
    } else {
      var d := Decimal(-n);
      assert t == "-" + d;
      assert t[1..] == d;
      DecimalRoundTrip(-n);
    }
  }
}

=== FILE: optional.dfy ===
/** An optional value: what a JavaScript lookup returns as `null` or `undefined`
    when the thing looked up is absent. */
module Optional {

  datatype Option<+T> = None | Some(value: T) {

    /** The wrapped value, or `default` when there is none. */
    function GetOr(default: T): T {
      match this
      case Some(v) => v
      case None => default
    }
  }

  /** Looking a key up in a map: its value when present, nothing otherwise.
      Both a JSON object's property read and `localStorage.getItem` are this lookup. */
  function Lookup<K, V>(m: map<K, V>, key: K): (r: Option<V>)
    ensures r.Some? <==> key in m
    ensures r.Some? ==> r.value == m[key]
  {
    if key in m then Some(m[key]) else None
  }
}

=== FILE: site_forms.dfy ===
/** The forms of the main page (`script.js`): its token helpers, the four
    appointment-field validators and the submit chain that runs them all, the
    implicit signup the appointment form makes, and the signup and login forms of
    the auth modal. Each handler takes the outcome of its request as a parameter. */
module SiteForms {
  import opened Optional
  import opened JsText
  import opened JsValue
  import opened WebStorage
  import opened Http
  import CognitoAuth


  // ---------------------------------------------------------------------------
  // Token helpers of this page: only `authToken`

  /** `setToken(token)`: writes `authToken` and nothing else. */
  function SetToken(st: Store, token: string): (r: Store)
    ensures GetItem(r, AuthTokenKey) == Some(token)
    ensures SameOutside(r, st, {AuthTokenKey})
  {
    SetItem(st, AuthTokenKey, token)
  }

  /** `clearToken()`: removes `authToken` and nothing else. */
  function ClearToken(st: Store): (r: Store)
    ensures GetItem(r, AuthTokenKey) == None
    ensures SameOutside(r, st, {AuthTokenKey})
  {
    RemoveItem(st, AuthTokenKey)
  }

  /** This page's `clearToken` leaves the id and refresh tokens behind, where the
      auth client's `clearToken` removes all three. */
  lemma ClearTokenKeepsOtherTokens(st: Store)
    ensures GetItem(ClearToken(st), CognitoAuth.IdTokenKey) == GetItem(st, CognitoAuth.IdTokenKey)
    ensures GetItem(ClearToken(st), CognitoAuth.RefreshTokenKey) == GetItem(st, CognitoAuth.RefreshTokenKey)
    ensures GetItem(CognitoAuth.ClearTokens(st), CognitoAuth.RefreshTokenKey) == None
    ensures GetItem(ClearToken(st), AuthTokenKey) == GetItem(CognitoAuth.ClearTokens(st), AuthTokenKey)
  {
    assert CognitoAuth.RefreshTokenKey in CognitoAuth.TokenKeys;
    assert AuthTokenKey in CognitoAuth.TokenKeys;
  }

  // ---------------------------------------------------------------------------
  // Field validators

  /** Name: the trimmed value is not empty, that is, some character of the
      value is not whitespace. */
  predicate NameValid(value: string): (ok: bool)
    ensures ok <==> exists i :: 0 <= i < |value| && !IsSpace(value[i])
  {
    TrimEmptyIffAllSpace(value);
    Trim(value) != ""
  }

  /** Message: the trimmed value is not empty, that is, some character of the
      value is not whitespace. */
  predicate MessageValid(value: string): (ok: bool)
    ensures ok <==> exists i :: 0 <= i < |value| && !IsSpace(value[i])
  {
    TrimEmptyIffAllSpace(value);
    Trim(value) != ""
  }

  /** Phone: the trimmed value is at least ten UTF-16 code units long, whatever
      its characters are. Ten characters always pass, fewer than five never do,
      and for text inside the Basic Multilingual Plane the test is ten characters. */
  predicate PhoneValid(value: string): (ok: bool)
    ensures |Trim(value)| >= 10 ==> ok
    ensures |Trim(value)| < 5 ==> !ok
    ensures (forall i :: 0 <= i < |Trim(value)| ==> Trim(value)[i] as int < 0x1_0000) ==>
              (ok <==> |Trim(value)| >= 10)
  {
    Utf16Length(Trim(value)) >= 10
  }

  /** Five characters outside the Basic Multilingual Plane are ten code units. */
  lemma FiveWideCharacters()
    ensures Utf16Length("\U{1F600}\U{1F600}\U{1F600}\U{1F600}\U{1F600}") == 10
  {
    var e := "\U{1F600}";
    assert e[..0] == [];
    Utf16LengthAppend(e, e);
    Utf16LengthAppend(e + e, e);
    Utf16LengthAppend(e + e + e, e);
    Utf16LengthAppend(e + e + e + e, e);
    assert e + e + e + e + e == "\U{1F600}\U{1F600}\U{1F600}\U{1F600}\U{1F600}";
  }

  /** Five characters outside the Basic Multilingual Plane pass the phone check. */
  lemma PhoneCountsCodeUnits()
    ensures PhoneValid("\U{1F600}\U{1F600}\U{1F600}\U{1F600}\U{1F600}")
  {
    TrimUnpadded("\U{1F600}\U{1F600}\U{1F600}\U{1F600}\U{1F600}");
    FiveWideCharacters();
  }

  /** Ten digits pass the phone check and nine do not. */
  lemma PhoneNeedsTenDigits()
    ensures PhoneValid("0123456789")
    ensures !PhoneValid("012345678")
  {
    TrimUnpadded("0123456789");
    var nine := "012345678";
    TrimUnpadded(nine);
    assert forall i :: 0 <= i < |nine| ==> nine[i] as int < 0x1_0000;
  }

  /** `[^\s@]`: neither whitespace nor '@'. */
  predicate EmailChar(c: char) {
    !IsSpace(c) && c != '@'
  }

  /** `[^\s@]+`: one or more such characters. */
  predicate Run(s: string) {
    |s| >= 1 && forall i :: 0 <= i < |s| ==> EmailChar(s[i])
  }

  /** The language of `/^[^\s@]+@[^\s@]+\.[^\s@]+$/`: a run, '@', a run, '.', a run. */
  ghost predicate MatchesEmailPattern(s: string) {
    exists at, dot ::
      && 0 < at < dot < |s| - 1
      && s[at] == '@' && s[dot] == '.'
      && Run(s[..at]) && Run(s[at + 1..dot]) && Run(s[dot + 1..])
  }

  function CountChar(s: string, c: char): nat
    decreases |s|
  {
    if s == [] then 0 else (if s[0] == c then 1 else 0) + CountChar(s[1..], c)
  }

  lemma {:induction false} CountCharAppend(a: string, b: string, c: char)
    ensures CountChar(a + b, c) == CountChar(a, c) + CountChar(b, c)
    decreases |a|
  {
    if a == [] {
      assert a + b == b;
    } else {
      assert (a + b)[0] == a[0];
      assert (a + b)[1..] == a[1..] + b;
      CountCharAppend(a[1..], b, c);
    }
  }

  lemma {:induction false} CountCharZero(s: string, c: char)
    ensures CountChar(s, c) == 0 <==> forall i :: 0 <= i < |s| ==> s[i] != c
    decreases |s|
  {
    if s != [] {
      CountCharZero(s[1..], c);
      assert forall i :: 1 <= i < |s| ==> s[i] == s[1..][i - 1];
    }
  }

  /** The index of the first `c` in `s`, or `|s|` when there is none. */
  function IndexOf(s: string, c: char): (i: nat)
    ensures i <= |s|
    ensures i < |s| ==> s[i] == c
    ensures forall j :: 0 <= j < i ==> s[j] != c
    decreases |s|
  {
    if s == [] then 0 else if s[0] == c then 0 else 1 + IndexOf(s[1..], c)
  }

  /** The domain has a '.' that is neither its first nor its last character. */
  predicate HasInnerDot(domain: string) {
    exists k :: 0 < k < |domain| - 1 && domain[k] == '.'
  }

  /** The pattern spelled out: no whitespace, exactly one '@', a non-empty part
      before it, and a domain after it with an inner '.'. */
  predicate EmailShape(s: string) {
    && (forall i :: 0 <= i < |s| ==> !IsSpace(s[i]))
    && CountChar(s, '@') == 1
    && 0 < IndexOf(s, '@') < |s|
    && HasInnerDot(s[IndexOf(s, '@') + 1..])
  }

  /** `emailRegex.test(value.trim())`: the trimmed text is in the language of
      `^[^\s@]+@[^\s@]+\.[^\s@]+$`. */
  predicate EmailValid(value: string): (ok: bool)
    ensures ok <==> MatchesEmailPattern(Trim(value))
  {
    EmailShapeIffPattern(Trim(value));
    EmailShape(Trim(value))
  }

  /** With exactly one '@', every other character is not '@'. */
  lemma OnlyAt(s: string, at: nat)
    requires at < |s| && s[at] == '@' && CountChar(s, '@') == 1
    ensures forall j :: 0 <= j < |s| && j != at ==> s[j] != '@'
  {
    assert s == s[..at] + s[at..];
    assert s[at..] == [s[at]] + s[at + 1..];
    CountCharAppend(s[..at], s[at..], '@');
    CountCharAppend([s[at]], s[at + 1..], '@');
    CountCharZero(s[..at], '@');
    CountCharZero(s[at + 1..], '@');
    forall j | 0 <= j < |s| && j != at
      ensures s[j] != '@'
    {
      if j < at {
        assert s[j] == s[..at][j];
      } else {
        assert s[j] == s[at + 1..][j - at - 1];
      }
    }
  }

  /** A string in the pattern's language has the structural description. */
  lemma PatternHasShape(s: string, at: nat, dot: nat)
    requires 0 < at < dot < |s| - 1 && s[at] == '@' && s[dot] == '.'
    requires Run(s[..at]) && Run(s[at + 1..dot]) && Run(s[dot + 1..])
    ensures EmailShape(s)
  {
    RunsAvoidSpaceAndAt(s, at, dot);
    SingleAt(s, at);
    var domain := s[at + 1..];
    assert domain[dot - at - 1] == '.';
  }

  /** Outside the '@' itself, the three runs hold neither whitespace nor '@'. */
  lemma RunsAvoidSpaceAndAt(s: string, at: nat, dot: nat)
    requires 0 < at < dot < |s| - 1 && s[at] == '@' && s[dot] == '.'
    requires Run(s[..at]) && Run(s[at + 1..dot]) && Run(s[dot + 1..])
    ensures forall i :: 0 <= i < |s| ==> !IsSpace(s[i]) && (i != at ==> s[i] != '@')
  {
    forall i | 0 <= i < |s|
      ensures !IsSpace(s[i]) && (i != at ==> s[i] != '@')
    {
      if i < at {
        assert s[i] == s[..at][i];
      } else if at < i < dot {
        assert s[i] == s[at + 1..dot][i - at - 1];
      } else if dot < i {
        assert s[i] == s[dot + 1..][i - dot - 1];
      }
    }
  }

  /** A string whose only '@' is at `at` counts one '@', first found at `at`. */
  lemma SingleAt(s: string, at: nat)
    requires at < |s| && s[at] == '@'
    requires forall i :: 0 <= i < |s| && i != at ==> s[i] != '@'
    ensures CountChar(s, '@') == 1 && IndexOf(s, '@') == at
  {
    assert s == s[..at] + ([s[at]] + s[at + 1..]);
    CountCharZero(s[..at], '@');
    CountCharZero(s[at + 1..], '@');
    CountCharAppend(s[..at], [s[at]] + s[at + 1..], '@');
    CountCharAppend([s[at]], s[at + 1..], '@');
  }

  /** A string with the structural description is in the pattern's language. */
  lemma ShapeMatchesPattern(s: string)
    requires EmailShape(s)
    ensures MatchesEmailPattern(s)
  {
    var at := IndexOf(s, '@');
    var domain := s[at + 1..];
    var k :| 0 < k < |domain| - 1 && domain[k] == '.';
    var dot := at + 1 + k;
    OnlyAt(s, at);
    assert s[dot] == '.';
    assert Run(s[..at]);
    assert Run(s[at + 1..dot]);
    assert Run(s[dot + 1..]);
  }

  /** The structural description is exactly the language of the pattern. */
  lemma EmailShapeIffPattern(s: string)
    ensures EmailShape(s) <==> MatchesEmailPattern(s)
  {
    if MatchesEmailPattern(s) {
      var at, dot :| && 0 < at < dot < |s| - 1
                     && s[at] == '@' && s[dot] == '.'
                     && Run(s[..at]) && Run(s[at + 1..dot]) && Run(s[dot + 1..]);
      PatternHasShape(s, at, dot);
    }
    if EmailShape(s) {
      ShapeMatchesPattern(s);
    }
  }

  // ---------------------------------------------------------------------------
  // The validation chain

  /** The `.error-msg` element of a field: hidden, or showing a message. */
  datatype FieldState = Passed | Flagged(message: string)

  /** `validateField(input, condition, errorMsg)` for one field. */
  datatype Check = Check(passes: bool, message: string)

  /** The submit handler's chain `isValid = validateField(…) && isValid`, one
      step per check in order: the field's check is evaluated before the running
      flag, so every field is validated and shows its own state even after an
      earlier field failed. */
  function RunChecks(checks: seq<Check>, isValid: bool): (r: (seq<FieldState>, bool))
    ensures |r.0| == |checks|
    ensures forall i :: 0 <= i < |checks| ==>
              r.0[i] == if checks[i].passes then Passed else Flagged(checks[i].message)
    ensures r.1 <==> isValid && forall i :: 0 <= i < |checks| ==> checks[i].passes
    decreases |checks|
  {
    if checks == [] then ([], isValid)
    else
      var state := if checks[0].passes then Passed else Flagged(checks[0].message);
      var rest := RunChecks(checks[1..], checks[0].passes && isValid);
      ([state] + rest.0, rest.1)
  }

  datatype Appointment = Appointment(name: string, email: string, phone: string, message: string)

  /** The chain over four checks, spelled out. */
  function RunFour(a: Check, b: Check, c: Check, d: Check): (r: (seq<FieldState>, bool))
    ensures |r.0| == 4
    ensures r.0[0] == (if a.passes then Passed else Flagged(a.message))
    ensures r.0[1] == (if b.passes then Passed else Flagged(b.message))
    ensures r.0[2] == (if c.passes then Passed else Flagged(c.message))
    ensures r.0[3] == (if d.passes then Passed else Flagged(d.message))
    ensures r.1 <==> a.passes && b.passes && c.passes && d.passes
  {
    var checks := [a, b, c, d];
    var r := RunChecks(checks, true);
    assert checks[0] == a && checks[1] == b && checks[2] == c && checks[3] == d;
    r
  }

  /** The four field states, in form order, and whether the form is valid. */
  function ValidateAppointment(f: Appointment): (r: (seq<FieldState>, bool))
    ensures |r.0| == 4
    ensures r.0[0] == if NameValid(f.name) then Passed else Flagged("Name is required")
    ensures r.0[1] == if EmailValid(f.email) then Passed else Flagged("Please enter a valid email")
    ensures r.0[2] == if PhoneValid(f.phone) then Passed else Flagged("Phone must be at least 10 digits")
    ensures r.0[3] == if MessageValid(f.message) then Passed else Flagged("Message cannot be empty")
    ensures r.1 <==> NameValid(f.name) && EmailValid(f.email) && PhoneValid(f.phone) && MessageValid(f.message)
  {
    RunFour(Check(NameValid(f.name), "Name is required"),
            Check(EmailValid(f.email), "Please enter a valid email"),
            Check(PhoneValid(f.phone), "Phone must be at least 10 digits"),
            Check(MessageValid(f.message), "Message cannot be empty"))
  }

  // ---------------------------------------------------------------------------
  // Appointment submission

  /** The success popup: its title, and whether the text says an account was created. */
  datatype Popup = Popup(title: string, accountCreated: bool)

  datatype Submission = Submission(
    fields: seq<FieldState>, sent: Option<Request>, popup: Option<Popup>, reset: bool, store: Store)

  /** `signupResult.message && signupResult.message.includes(…)` throws when
      the message is truthy but has no `includes` method: strings and arrays
      have one, a falsy message is never asked. */
  function IncludesThrows(message: Option<Value>): (r: bool)
    ensures !Truthy(message) ==> !r
    ensures message.Some? && (message.value.Str? || message.value.Arr?) ==> !r
    ensures r <==> Truthy(message) && (message.value.Num? || message.value.Bool? || message.value.Obj?)
  {
    Truthy(message) && !(message.value.Str? || message.value.Arr?)
  }

  /** The appointment form's submit handler. Invalid: field states only. Valid:
      the implicit signup is sent, and on every outcome a popup is shown and the
      form reset; a returned token is stored. `suffix` stands for the random part
      of the temporary password. */
  function SubmitAppointment(f: Appointment, st: Store, suffix: string, o: Outcome): (r: Submission)
    ensures r.fields == ValidateAppointment(f).0
    ensures !ValidateAppointment(f).1 ==> r.sent == None && r.popup == None && !r.reset && r.store == st
    ensures ValidateAppointment(f).1 ==> r.popup.Some? && r.reset
    ensures ValidateAppointment(f).1 ==>
              r.sent == Some(PostJson("/auth/signup", map["email" := Str(Trim(f.email)), "password" := Str("TempPass" + suffix)]))
    ensures ValidateAppointment(f).1 && o.Threw? ==> r.popup == Some(Popup("Message Received!", false)) && r.store == st
    ensures ValidateAppointment(f).1 && o.Resp? && Truthy(Field(o.body, "token")) ==>
              r.popup == Some(Popup("Appointment Confirmed!", true)) &&
              GetItem(r.store, AuthTokenKey) == Some(ToText(Field(o.body, "token")))
    ensures ValidateAppointment(f).1 && !(o.Resp? && Truthy(Field(o.body, "token"))) ==> r.store == st
    // a tokenless reply whose message has no `includes` throws inside the `try`
    ensures ValidateAppointment(f).1 && o.Resp? && !Truthy(Field(o.body, "token")) ==>
              r.popup == Some(Popup(if IncludesThrows(Field(o.body, "message")) then "Message Received!"
                                    else "Appointment Confirmed!", false))
    ensures SameOutside(r.store, st, {AuthTokenKey})
  {
    var (fields, valid) := ValidateAppointment(f);
    if !valid then Submission(fields, None, None, false, st)
    else
      var sent := Some(PostJson("/auth/signup", map["email" := Str(Trim(f.email)), "password" := Str("TempPass" + suffix)]));
      match o
      case Threw => Submission(fields, sent, Some(Popup("Message Received!", false)), true, st)
      case Resp(_, body) =>
        var token := Field(body, "token");
        if Truthy(token) then
          Submission(fields, sent, Some(Popup("Appointment Confirmed!", true)), true, SetToken(st, ToText(token)))
        else if IncludesThrows(Field(body, "message")) then
          Submission(fields, sent, Some(Popup("Message Received!", false)), true, st)
        else
          Submission(fields, sent, Some(Popup("Appointment Confirmed!", false)), true, st)
  }

  /** An empty name blocks submission with "Name is required" and sends nothing. */
  lemma EmptyNameBlocks(f: Appointment, st: Store, suffix: string, o: Outcome)
    requires Trim(f.name) == ""
    ensures var r := SubmitAppointment(f, st, suffix, o);
            r.sent == None && r.popup == None && r.fields[0] == Flagged("Name is required")
  {
  }

  // ---------------------------------------------------------------------------
  // The auth modal's forms

  /** The `.auth-message` element: hidden, or a success or error text. */
  datatype Notice = Hidden | Success(text: Value) | Failure(text: Value)

  /** A form's submit button: whether it is disabled, and its text. */
  datatype SubmitButton = SubmitButton(disabled: bool, text: string)

  /** What a form submission leaves: the notice, the request sent, the submit
      button while the request is outstanding (`pending`) and after it settles,
      whether the auth button switched to "Logout", and storage. */
  datatype FormReply = FormReply(
    notice: Notice, sent: Option<Request>, pending: SubmitButton, button: SubmitButton,
    loggedIn: bool, store: Store)

  /** The texts of one of the modal's forms: the button while busy and at rest,
      the success notice, the fallback for a reply without token or message,
      and the notice for an exception. */
  datatype FormTexts = FormTexts(busy: string, idle: string, welcome: string, rejected: string, failed: string)

  const SignupTexts := FormTexts("Creating account...", "Sign Up", "Account created successfully!",
                                 "Signup failed", "Signup failed. Please try again.")
  const LoginTexts := FormTexts("Logging in...", "Login", "Login successful!",
                                "Login failed", "Login failed. Please check your credentials.")

  /** The shared body of the signup and login handlers: the button is disabled
      while the request is outstanding and re-enabled however it settles; a
      truthy `token` in the reply is stored and reported as success, anything
      else is an error notice. */
  function AuthAttempt(st: Store, request: Request, o: Outcome, texts: FormTexts): (r: FormReply)
    ensures r.sent == Some(request)
    ensures r.pending == SubmitButton(true, texts.busy) && r.button == SubmitButton(false, texts.idle)
    ensures o.Resp? && Truthy(Field(o.body, "token")) ==>
              r.loggedIn && r.notice == Success(Str(texts.welcome)) &&
              GetItem(r.store, AuthTokenKey) == Some(ToText(Field(o.body, "token")))
    ensures o.Resp? && !Truthy(Field(o.body, "token")) ==>
              !r.loggedIn && r.store == st && r.notice == Failure(OrElse(Field(o.body, "message"), texts.rejected))
    ensures o.Threw? ==> !r.loggedIn && r.store == st && r.notice == Failure(Str(texts.failed))
    ensures SameOutside(r.store, st, {AuthTokenKey})
  {
    var pending := SubmitButton(true, texts.busy);
    var settled := SubmitButton(false, texts.idle);
    match o
    case Threw => FormReply(Failure(Str(texts.failed)), Some(request), pending, settled, false, st)
    case Resp(_, body) =>
      var token := Field(body, "token");
      if Truthy(token) then
        FormReply(Success(Str(texts.welcome)), Some(request), pending, settled, true, SetToken(st, ToText(token)))
      else
        FormReply(Failure(OrElse(Field(body, "message"), texts.rejected)), Some(request), pending, settled, false, st)
  }

  function CredentialsRequest(path: string, email: string, password: string): Request {
    PostJson(path, map["email" := Str(Trim(email)), "password" := Str(password)])
  }

  /** The signup form's submit handler: mismatched passwords stop it before any
      request and before the button is touched; otherwise it signs up. */
  function SubmitSignup(st: Store, button: SubmitButton, email: string, password: string, confirm: string, o: Outcome)
    : (r: FormReply)
    ensures password != confirm ==>
              r == FormReply(Failure(Str("Passwords do not match!")), None, button, button, false, st)
    ensures password == confirm ==> r.sent == Some(CredentialsRequest("/auth/signup", email, password))
    ensures password == confirm ==> r.pending.disabled && !r.button.disabled
    ensures r.loggedIn <==> password == confirm && o.Resp? && Truthy(Field(o.body, "token"))
    // unlike `cognitoAPI.signup`, this handler stores a returned token
    ensures password == confirm && o.Resp? && Truthy(Field(o.body, "token")) ==>
              GetItem(r.store, AuthTokenKey) == Some(ToText(Field(o.body, "token"))) &&
              r.notice == Success(Str("Account created successfully!"))
    ensures password == confirm && o.Resp? && !Truthy(Field(o.body, "token")) ==>
              r.notice == Failure(OrElse(Field(o.body, "message"), "Signup failed"))
    ensures password == confirm && o.Threw? ==> r.notice == Failure(Str("Signup failed. Please try again."))
    ensures !r.loggedIn ==> r.store == st
    ensures SameOutside(r.store, st, {AuthTokenKey})
  {
    if password != confirm then
      FormReply(Failure(Str("Passwords do not match!")), None, button, button, false, st)
    else
      AuthAttempt(st, CredentialsRequest("/auth/signup", email, password), o, SignupTexts)
  }

  /** The login form's submit handler. */
  function SubmitLogin(st: Store, email: string, password: string, o: Outcome): (r: FormReply)
    ensures r.sent == Some(CredentialsRequest("/auth/login", email, password))
    ensures r.pending.disabled && !r.button.disabled
    ensures r.loggedIn <==> o.Resp? && Truthy(Field(o.body, "token"))
    ensures o.Resp? && Truthy(Field(o.body, "token")) ==>
              GetItem(r.store, AuthTokenKey) == Some(ToText(Field(o.body, "token"))) &&
              r.notice == Success(Str("Login successful!"))
    ensures o.Resp? && !Truthy(Field(o.body, "token")) ==>
              r.notice == Failure(OrElse(Field(o.body, "message"), "Login failed"))
    ensures o.Threw? ==> r.notice == Failure(Str("Login failed. Please check your credentials."))
    ensures !r.loggedIn ==> r.store == st
    ensures SameOutside(r.store, st, {AuthTokenKey})
  {
    AuthAttempt(st, CredentialsRequest("/auth/login", email, password), o, LoginTexts)
  }

  /** The "Logout" button of a logged-in page: only `authToken` is removed. */
  function LogoutClick(st: Store): (r: Store)
    ensures GetItem(r, AuthTokenKey) == None
    ensures SameOutside(r, st, {AuthTokenKey})
  {
    ClearToken(st)
  }

  // ---------------------------------------------------------------------------
  // The rest of the page's setup, after the appointment form is wired

  /** The auth button's text and click behaviour: as the markup has it, or as
      `updateAuthButton` set it. */
  datatype AuthButton = AsInMarkup | LoginSignup | LogoutButton

  /** `updateAuthButton(isLoggedIn)`. It writes `authBtn`, a `const` of the same
      handler; touching it before its declaration has run throws a
      ReferenceError, modelled as `None`. */
  function UpdateAuthButton(authBtnDeclared: bool, isLoggedIn: bool): (r: Option<AuthButton>)
    ensures r.None? <==> !authBtnDeclared
    ensures r.Some? ==> (r.value == LogoutButton <==> isLoggedIn) && r.value != AsInMarkup
  {
    if !authBtnDeclared then None
    else if isLoggedIn then Some(LogoutButton)
    else Some(LoginSignup)
  }

  /** How the setup ends: whether it ran to the end of the handler, the auth
      button, whether the modal's handlers (auth button click, close, tabs, login
      and signup forms) were attached, and the user request sent at load. */
  datatype Setup = Setup(completed: bool, button: AuthButton, modalWired: bool, userCheck: Option<Request>)

  /** `api.getUser()` at load: a GET of `/users` with the stored token. */
  function UserCheckRequest(token: string): Request {
    Request(Get, "/users", Some(Bearer(Some(token))), map[])
  }

  /** The login check at load followed by the modal's wiring, with `authBtn`
      declared either before the check (`declaredFirst`) or after it. An
      exception ends the handler, so nothing after it is attached. */
  function RunSetup(st: Store, declaredFirst: bool): Setup {
    if HasItem(st, AuthTokenKey) then
      match UpdateAuthButton(declaredFirst, true)
      case None => Setup(false, AsInMarkup, false, None)
      case Some(b) => Setup(true, b, true, Some(UserCheckRequest(st[AuthTokenKey])))
    else Setup(true, AsInMarkup, true, None)
  }

  /** The setup as written: `authBtn` is declared after the login check, so a
      page loaded with a token stops at the check, before the user request and
      before any modal handler is attached. */
  function FinishSetup(st: Store): (r: Setup)
    ensures r.completed <==> !HasItem(st, AuthTokenKey)
    ensures r.modalWired <==> !HasItem(st, AuthTokenKey)
    ensures r.button == AsInMarkup && r.userCheck == None
  {
    RunSetup(st, false)
  }

  /** The setup with `authBtn` declared before the login check: it always
      completes and wires the modal, and a stored token shows "Logout" and sends
      the user request with that token. */
  function FinishSetupDeclaredFirst(st: Store): (r: Setup)
    ensures r.completed && r.modalWired
    ensures r.button == LogoutButton <==> HasItem(st, AuthTokenKey)
    ensures r.userCheck.Some? <==> HasItem(st, AuthTokenKey)
    ensures r.userCheck.Some? ==> r.userCheck.value.authorization == Some("Bearer " + st[AuthTokenKey])
  {
    RunSetup(st, true)
  }

  /** A stored token at load leaves the login and signup forms without handlers
      as written, and with them once `authBtn` is declared first. */
  lemma StoredTokenLeavesModalUnwired()
    ensures !FinishSetup(map[AuthTokenKey := "t"]).modalWired
    ensures FinishSetupDeclaredFirst(map[AuthTokenKey := "t"]).modalWired
    ensures FinishSetup(map[]).modalWired
  {
  }
}

=== FILE: site_nav.dfy ===
/** Single-page view switching on the main page (`script.js`): which
    sections and nav links carry the `active` class. Elements are identified by
    their position in document order. */
module SiteNav {
  import opened Optional

  /** An element of the document: its `id` attribute, and whether it is one of
      the `section, header` elements the switcher deactivates. */
  datatype Element = Element(id: Option<string>, isSection: bool)

  /** The document: its elements in order, and the `href` attribute of each
      `.nav-links a` link in order. */
  datatype Page = Page(elements: seq<Element>, navLinks: seq<Option<string>>)

  /** The positions of the elements and of the nav links that carry `active`. */
  datatype View = View(active: set<nat>, activeLinks: set<nat>)

  predicate IsSection(page: Page, i: nat) {
    i < |page.elements| && page.elements[i].isSection
  }

  /** The first element at or after `from` whose id is `id`. */
  function FindFrom(elements: seq<Element>, id: string, from: nat): (r: Option<nat>)
    requires from <= |elements|
    ensures r.Some? ==> from <= r.value < |elements| && elements[r.value].id == Some(id)
    ensures r.Some? ==> forall j :: from <= j < r.value ==> elements[j].id != Some(id)
    ensures r.None? ==> forall j :: from <= j < |elements| ==> elements[j].id != Some(id)
    decreases |elements| - from
  {
    if from == |elements| then None
    else if elements[from].id == Some(id) then Some(from)
    else FindFrom(elements, id, from + 1)
  }

  /** `document.querySelector(selector)`, for a selector starting with `#` read
      as an id selector whose id is all the rest (`#home .x` looks up the id
      `home .x`): the first element in document order with that id. Any other
      selector selects nothing. */
  function Select(page: Page, selector: string): (r: Option<nat>)
    ensures r.Some? ==> |selector| >= 1 && selector[0] == '#'
    ensures r.Some? ==> r.value < |page.elements| && page.elements[r.value].id == Some(selector[1..])
    ensures r.Some? ==> forall j :: 0 <= j < r.value ==> page.elements[j].id != Some(selector[1..])
    ensures r.None? && |selector| >= 1 && selector[0] == '#' ==>
              forall j :: 0 <= j < |page.elements| ==> page.elements[j].id != Some(selector[1..])
  {
    if |selector| >= 1 && selector[0] == '#' then FindFrom(page.elements, selector[1..], 0) else None
  }

  /** `switchView(targetId)`: every section loses `active`, the element the
      target selects gains it, and a nav link is active iff its href is the target. */
  function SwitchView(page: Page, v: View, target: string): (r: View)
    ensures forall i :: i in r.active && IsSection(page, i) ==> Select(page, target) == Some(i)
    ensures Select(page, target).Some? ==> Select(page, target).value in r.active
    ensures forall i :: i in r.active && !IsSection(page, i) ==> i in v.active || Select(page, target) == Some(i)
    ensures forall i :: i in v.active && !IsSection(page, i) ==> i in r.active
    ensures forall i :: i in r.activeLinks <==> 0 <= i < |page.navLinks| && page.navLinks[i] == Some(target)
  {
    var kept := set i | i in v.active && !IsSection(page, i);
    var found := Select(page, target);
    var active := if found.Some? then kept + {found.value} else kept;
    View(active, set i | 0 <= i < |page.navLinks| && page.navLinks[i] == Some(target))
  }

  /** Switching to the same target twice is switching once. */
  lemma SwitchViewIdempotent(page: Page, v: View, target: string)
    ensures SwitchView(page, SwitchView(page, v, target), target) == SwitchView(page, v, target)
  {
  }

  /** When the target is a section, it is the one active section afterwards. */
  lemma SwitchToSectionLeavesOne(page: Page, v: View, target: string)
    requires Select(page, target).Some? && IsSection(page, Select(page, target).value)
    ensures (set i | i in SwitchView(page, v, target).active && IsSection(page, i)) == {Select(page, target).value}
  {
  }

  /** A click on a nav or hero anchor: an href that is missing, empty or `#`
      changes nothing; any other switches to it. */
  function AnchorClick(page: Page, v: View, href: Option<string>): (r: View)
    ensures href.None? || href.value == "" || href.value == "#" ==> r == v
    ensures href.Some? && href.value != "" && href.value != "#" ==> r == SwitchView(page, v, href.value)
  {
    if href.Some? && href.value != "" && href.value != "#" then SwitchView(page, v, href.value) else v
  }

  /** The view chosen on load: the URL hash when it selects an element, else `#home`. */
  function InitialView(page: Page, v: View, hash: string): (r: View)
    ensures hash != "" && Select(page, hash).Some? ==>
              Select(page, hash).value in r.active &&
              (forall i :: i in r.active && IsSection(page, i) ==> Select(page, hash) == Some(i)) &&
              (forall i :: i in r.activeLinks <==> 0 <= i < |page.navLinks| && page.navLinks[i] == Some(hash))
    ensures !(hash != "" && Select(page, hash).Some?) ==>
              (forall i :: i in r.active && IsSection(page, i) ==> Select(page, "#home") == Some(i)) &&
              (forall i :: i in r.activeLinks <==> 0 <= i < |page.navLinks| && page.navLinks[i] == Some("#home"))
    ensures !(hash != "" && Select(page, hash).Some?) && Select(page, "#home").Some? ==>
              Select(page, "#home").value in r.active
    // elements outside the sections keep their state either way
    ensures forall i :: i in v.active && !IsSection(page, i) ==> i in r.active
  {
    if hash != "" && Select(page, hash).Some? then SwitchView(page, v, hash) else SwitchView(page, v, "#home")
  }
}

=== FILE: verify_otp.dfy ===
/** The one-time-code entry page (`verify-otp.js`) as a state machine: six
    cells, the focused cell, the verify and resend buttons, the message area and
    the part of local storage the page touches. Each handler is a pure
    transition; network responses arrive as separate events. */
module VerifyOtp {
  import opened Optional
  import opened JsText
  import opened JsValue
  import opened WebStorage
  import opened Http

  const VerifyEmailKey := "verifyEmail"

  /** Seconds (timer ticks) the resend control stays hidden after a code is sent. */
  const CooldownStart: nat := 30

  /** An index of one of the six `.otp-input` cells. */
  type Cell = i: int | 0 <= i < 6

  /** The values of the six cells, in order. */
  type Cells = s: seq<string> | |s| == 6 witness ["", "", "", "", "", ""]

  const Blank: Cells := ["", "", "", "", "", ""]

  /** The resend control: `Ready` (shown, enabled), `Sending` (shown, disabled,
      request in flight), `Cooldown(n)` (hidden, `n` ticks left on the count
      `timeLeft`), and `Disabled` (shown but disabled, which nothing on the page
      undoes). */
  datatype Resend = Ready | Sending | Cooldown(left: nat) | Disabled

  /** The page state. `error` is the message shown in the error area, `success`
      whether the success message is shown, `redirect` whether the move to the
      home page has been scheduled, `loading` whether the verify spinner shows. */
  datatype Widget = Widget(
    email: string,
    cells: Cells,
    focus: Cell,
    verifyEnabled: bool,
    loading: bool,
    error: Option<Value>,
    success: bool,
    redirect: bool,
    resend: Resend,
    store: Store)

  datatype Key = Backspace | ArrowLeft | ArrowRight | OtherKey

  datatype Event =
    | Input(cell: Cell, value: string)     // the cell's value after the browser's edit
    | KeyDown(cell: Cell, key: Key)
    | Paste(cell: Cell, text: string)      // the clipboard's text
    | VerifyClick                          // a click on the verify button
    | EnterKey                             // Enter pressed anywhere on the page
    | VerifyDone(outcome: Outcome)         // the verification request settled
    | ResendClick
    | ResendDone(outcome: Outcome)         // the resend request settled
    | Tick                                 // one second of the countdown interval

  /** The state after an event and the request the event sent, if any. */
  datatype Step = Step(widget: Widget, request: Option<Request>)

  /** Every cell holds nothing or a single digit. */
  predicate WellFormed(w: Widget) {
    && (forall i :: 0 <= i < 6 ==> w.cells[i] == "" || IsOneDigit(w.cells[i]))
    && (w.resend.Cooldown? ==> 1 <= w.resend.left <= CooldownStart)
  }

  predicate Filled(cells: Cells) {
    forall i :: 0 <= i < 6 ==> cells[i] != ""
  }

  // ---------------------------------------------------------------------------
  // Helpers of the page

  /** `checkIfComplete()`: the verify button is enabled iff no cell is empty. */
  function CheckIfComplete(w: Widget): (r: Widget)
    ensures r.verifyEnabled <==> Filled(w.cells)
    ensures r.(verifyEnabled := w.verifyEnabled) == w
  {
    w.(verifyEnabled := Filled(w.cells))
  }

  function Concat(parts: seq<string>): string
    decreases |parts|
  {
    if parts == [] then "" else parts[0] + Concat(parts[1..])
  }

  /** `getOtpValue()`: the cells joined in order. */
  function OtpValue(cells: Cells): (code: string)
    ensures code == cells[0] + (cells[1] + (cells[2] + (cells[3] + (cells[4] + cells[5]))))
  {
    ConcatSix(cells);
    Concat(cells)
  }

  /** Six strings joined, the way `join('')` reads them: first to last. */
  lemma ConcatSix(parts: seq<string>)
    requires |parts| == 6
    ensures Concat(parts) == parts[0] + (parts[1] + (parts[2] + (parts[3] + (parts[4] + parts[5]))))
  {
    var p5, p4, p3, p2, p1 := parts[5..], parts[4..], parts[3..], parts[2..], parts[1..];
    assert p5[1..] == [] && p4[1..] == p5 && p3[1..] == p4 && p2[1..] == p3 && p1[1..] == p2;
    assert Concat(p5) == parts[5];
    assert Concat(p4) == parts[4] + parts[5];
    assert Concat(p3) == parts[3] + (parts[4] + parts[5]);
    assert Concat(p2) == parts[2] + (parts[3] + (parts[4] + parts[5]));
    assert Concat(p1) == parts[1] + (parts[2] + (parts[3] + (parts[4] + parts[5])));
  }

  /** Joining strings of at most one character: the result has one character per
      non-empty part, so it is as long as the list exactly when no part is empty,
      and then its characters are the parts' characters in order. */
  lemma {:induction false} ConcatOfSingles(parts: seq<string>)
    requires forall i :: 0 <= i < |parts| ==> |parts[i]| <= 1
    ensures |Concat(parts)| <= |parts|
    ensures |Concat(parts)| == |parts| <==> forall i :: 0 <= i < |parts| ==> parts[i] != ""
    ensures (forall i :: 0 <= i < |parts| ==> parts[i] != "") ==>
              forall i :: 0 <= i < |parts| ==> Concat(parts)[i] == parts[i][0]
    decreases |parts|
  {
    if parts != [] {
      var tail := parts[1..];
      ConcatOfSingles(tail);
      assert forall i :: 1 <= i < |parts| ==> parts[i] == tail[i - 1];
      if |Concat(parts)| == |parts| {
        assert parts[0] != "" && |Concat(tail)| == |tail|;
      }
    }
  }

  /** With well-formed cells, the code has six characters exactly when every
      cell is filled, and then character `i` is the digit in cell `i`. */
  lemma CompleteIffSixCharacters(w: Widget)
    requires WellFormed(w)
    ensures Filled(w.cells) <==> |OtpValue(w.cells)| == 6
    ensures Filled(w.cells) ==> forall i :: 0 <= i < 6 ==> OtpValue(w.cells)[i] == w.cells[i][0]
    ensures Filled(w.cells) ==> AllDigits(OtpValue(w.cells))
  {
    ConcatOfSingles(w.cells);
  }

  /** `clearOtp()`: every cell emptied and the first focused. */
  function ClearOtp(w: Widget): (r: Widget)
    ensures r.cells == Blank && r.focus == 0
    ensures r.(cells := w.cells, focus := w.focus) == w
  {
    w.(cells := Blank, focus := 0)
  }

  /** `showError(message)`: the message shown, the success message hidden. */
  function ShowError(w: Widget, message: Value): (r: Widget)
    ensures r.error == Some(message) && !r.success
    ensures r.(error := w.error, success := w.success) == w
  {
    w.(error := Some(message), success := false)
  }

  // ---------------------------------------------------------------------------
  // Cell handlers

  /** The `input` handler of cell `i`, given the value the edit produced. */
  function OnInput(w: Widget, i: Cell, value: string): (r: Widget)
    // anything but one digit or nothing: the cell is cleared and nothing else changes
    ensures value != "" && !IsOneDigit(value) ==>
              r.cells[i] == "" && r.focus == w.focus && r.(cells := w.cells) == w
    // one digit: stored, error hidden, focus to the next cell unless this is the last
    ensures IsOneDigit(value) ==> r.cells[i] == value && r.error == None
    ensures IsOneDigit(value) ==> r.focus == if i < 5 then i + 1 else w.focus
    // emptied: focus stays, and the verify button is now disabled
    ensures value == "" ==> r.cells[i] == "" && r.focus == w.focus && !r.verifyEnabled
    ensures value == "" || IsOneDigit(value) ==> (r.verifyEnabled <==> Filled(r.cells))
    // `hideError()` runs for an emptied cell too
    ensures value == "" ==> r.error == None
    ensures value == "" || IsOneDigit(value) ==>
              r.(cells := w.cells, focus := w.focus, error := w.error, verifyEnabled := w.verifyEnabled) == w
    ensures forall j :: 0 <= j < 6 && j != i ==> r.cells[j] == w.cells[j]
    ensures r.store == w.store && r.resend == w.resend
  {
    if value != "" && !IsOneDigit(value) then
      w.(cells := w.cells[i := ""])
    else
      var typed := w.(cells := w.cells[i := value], error := None);
      var moved := if value != "" && i < 5 then typed.(focus := i + 1) else typed;
      CheckIfComplete(moved)
  }

  /** The `keydown` handler of cell `i`: moves focus only, never changes a cell. */
  function OnKeyDown(w: Widget, i: Cell, key: Key): (r: Widget)
    ensures r.(focus := w.focus) == w
    ensures key == Backspace ==> r.focus == if w.cells[i] == "" && i > 0 then i - 1 else w.focus
    ensures key == ArrowLeft ==> r.focus == if i > 0 then i - 1 else w.focus
    ensures key == ArrowRight ==> r.focus == if i < 5 then i + 1 else w.focus
    ensures key == OtherKey ==> r == w
  {
    match key
    case Backspace => if w.cells[i] == "" && i > 0 then w.(focus := i - 1) else w
    case ArrowLeft => if i > 0 then w.(focus := i - 1) else w
    case ArrowRight => if i < 5 then w.(focus := i + 1) else w
    case OtherKey => w
  }

  /** The six one-character strings of a six-character code. */
  function Split(code: string): (cells: Cells)
    requires |code| == 6
    ensures forall i :: 0 <= i < 6 ==> cells[i] == [code[i]]
  {
    [code[0..1], code[1..2], code[2..3], code[3..4], code[4..5], code[5..6]]
  }

  /** The `paste` handler: six digits (after trimming) fill the cells in order,
      focus the last one and enable verify; any other text changes nothing. */
  function OnPaste(w: Widget, text: string): (r: Widget)
    ensures IsSixDigits(Trim(text)) ==> OtpValue(r.cells) == Trim(text)
    ensures IsSixDigits(Trim(text)) ==> (forall i :: 0 <= i < 6 ==> r.cells[i] == [Trim(text)[i]])
    ensures IsSixDigits(Trim(text)) ==> r.focus == 5 && r.verifyEnabled
    ensures IsSixDigits(Trim(text)) ==> r.(cells := w.cells, focus := w.focus, verifyEnabled := w.verifyEnabled) == w
    ensures !IsSixDigits(Trim(text)) ==> r == w
  {
    var code := Trim(text);
    if IsSixDigits(code) then
      var cells := Split(code);
      ConcatOfSingles(cells);
      assert Concat(cells) == code;
      CheckIfComplete(w.(cells := cells, focus := 5))
    else
      w
  }

  // ---------------------------------------------------------------------------
  // Verification

  function VerifyRequest(email: string, otp: string): Request {
    PostJson("/auth/cognito-verify-email", map["email" := Str(email), "otp" := Str(otp)])
  }

  /** `verifyOtp()` up to the request: a code that is not six characters long
      shows a local error and sends nothing; otherwise the button is disabled,
      the spinner shown and the code sent. */
  function Verify(w: Widget): (r: Step)
    ensures |OtpValue(w.cells)| != 6 ==> r.request == None
    ensures |OtpValue(w.cells)| != 6 ==> r.widget == ShowError(w, Str("Please enter all 6 digits"))
    ensures |OtpValue(w.cells)| == 6 ==> r.request == Some(VerifyRequest(w.email, OtpValue(w.cells)))
    ensures |OtpValue(w.cells)| == 6 ==> !r.widget.verifyEnabled && r.widget.loading
    ensures |OtpValue(w.cells)| == 6 ==> r.widget.(verifyEnabled := w.verifyEnabled, loading := w.loading) == w
    ensures r.widget.cells == w.cells && r.widget.store == w.store
  {
    var otp := OtpValue(w.cells);
    if |otp| != 6 then
      Step(ShowError(w, Str("Please enter all 6 digits")), None)
    else
      Step(w.(verifyEnabled := false, loading := true), Some(VerifyRequest(w.email, otp)))
  }

  /** A click on the verify button, or Enter: neither does anything while the
      button is disabled. */
  function PressVerify(w: Widget): (r: Step)
    ensures !w.verifyEnabled ==> r == Step(w, None)
    ensures w.verifyEnabled ==> r == Verify(w)
  {
    if w.verifyEnabled then Verify(w) else Step(w, None)
  }

  /** Well-formed cells: pressing verify sends a request exactly when the button
      is enabled and every cell is filled, and then it sends the six digits. */
  lemma PressVerifySendsOnlyCompleteCodes(w: Widget)
    requires WellFormed(w)
    ensures PressVerify(w).request.Some? <==> w.verifyEnabled && Filled(w.cells)
    ensures PressVerify(w).request.Some? ==> PressVerify(w).request.value.body["otp"] == Str(OtpValue(w.cells))
    ensures PressVerify(w).request.Some? ==> IsSixDigits(OtpValue(w.cells))
  {
    CompleteIffSixCharacters(w);
  }

  /** The response to the verification request (`try … catch … finally`). */
  function FinishVerify(w: Widget, o: Outcome): (r: Widget)
    // in every case: spinner off, button enabled again
    ensures !r.loading && r.verifyEnabled
    // server error or exception: message shown, cells cleared, first cell focused, storage untouched
    ensures !(o.Resp? && IsOk(o.status)) ==>
              r.cells == Blank && r.focus == 0 && r.error.Some? && r.redirect == w.redirect && r.store == w.store
    ensures o.Threw? ==> r.error == Some(Str("Network error. Please try again."))
    ensures o.Resp? && !IsOk(o.status) ==>
              r.error == Some(OrElse(Field(o.body, "message"), "Invalid OTP. Please try again."))
    // success: the token (if any) stored, the pending email removed, nothing else in storage
    ensures o.Resp? && IsOk(o.status) ==> r.redirect && r.success && r.error == None && r.cells == w.cells
    ensures o.Resp? && IsOk(o.status) ==> GetItem(r.store, VerifyEmailKey) == None
    ensures o.Resp? && IsOk(o.status) && Truthy(Field(o.body, "token")) ==>
              GetItem(r.store, AuthTokenKey) == Some(ToText(Field(o.body, "token")))
    ensures o.Resp? && IsOk(o.status) && !Truthy(Field(o.body, "token")) ==>
              GetItem(r.store, AuthTokenKey) == GetItem(w.store, AuthTokenKey)
    ensures SameOutside(r.store, w.store, {AuthTokenKey, VerifyEmailKey})
    ensures r.resend == w.resend
    // failure hides the success message; nothing outside the listed fields changes
    ensures !(o.Resp? && IsOk(o.status)) ==> !r.success
    ensures !(o.Resp? && IsOk(o.status)) ==>
              r.(cells := w.cells, focus := w.focus, error := w.error, success := w.success,
                 loading := w.loading, verifyEnabled := w.verifyEnabled) == w
    ensures o.Resp? && IsOk(o.status) ==>
              r.(success := w.success, error := w.error, redirect := w.redirect, store := w.store,
                 loading := w.loading, verifyEnabled := w.verifyEnabled) == w
  {
    match o
    case Threw =>
      VerifyFailed(w, Str("Network error. Please try again."))
    case Resp(status, body) =>
      if IsOk(status) then VerifySucceeded(w, body)
      else VerifyFailed(w, OrElse(Field(body, "message"), "Invalid OTP. Please try again."))
  }

  /** A failed verification: the message shown, the cells cleared and the first
      focused, the button enabled again and the spinner hidden. */
  function VerifyFailed(w: Widget, message: Value): (r: Widget)
    ensures r.error == Some(message) && !r.success && r.cells == Blank && r.focus == 0
    ensures !r.loading && r.verifyEnabled
    ensures r.(cells := w.cells, focus := w.focus, error := w.error, success := w.success,
               loading := w.loading, verifyEnabled := w.verifyEnabled) == w
  {
    ClearOtp(ShowError(w.(loading := false, verifyEnabled := true), message))
  }

  /** A successful verification: the success message shown, the token stored when
      the reply carries a truthy one, the pending email removed and the move to
      the home page scheduled. */
  function VerifySucceeded(w: Widget, body: Record): (r: Widget)
    ensures r.success && r.error == None && r.redirect && !r.loading && r.verifyEnabled
    ensures GetItem(r.store, VerifyEmailKey) == None
    ensures Truthy(Field(body, "token")) ==> GetItem(r.store, AuthTokenKey) == Some(ToText(Field(body, "token")))
    ensures !Truthy(Field(body, "token")) ==> GetItem(r.store, AuthTokenKey) == GetItem(w.store, AuthTokenKey)
    ensures SameOutside(r.store, w.store, {AuthTokenKey, VerifyEmailKey})
    ensures r.(success := w.success, error := w.error, redirect := w.redirect, store := w.store,
               loading := w.loading, verifyEnabled := w.verifyEnabled) == w
  {
    var token := Field(body, "token");
    var stored := if Truthy(token) then SetItem(w.store, AuthTokenKey, ToText(token)) else w.store;
    w.(loading := false, verifyEnabled := true, success := true, error := None, redirect := true,
       store := RemoveItem(stored, VerifyEmailKey))
  }

  // ---------------------------------------------------------------------------
  // Resend

  function ResendRequest(email: string): Request {
    PostJson("/auth/cognito-resend-code", map["email" := Str(email)])
  }

  /** A click on the resend button, which only a shown, enabled button receives:
      the button is disabled and the request sent. */
  function PressResend(w: Widget): (r: Step)
    ensures w.resend == Ready ==> r == Step(w.(resend := Sending), Some(ResendRequest(w.email)))
    ensures w.resend != Ready ==> r == Step(w, None)
  {
    if w.resend == Ready then Step(w.(resend := Sending), Some(ResendRequest(w.email))) else Step(w, None)
  }

  /** `startResendTimer()`: the control hidden and the countdown at 30. */
  function StartResendTimer(w: Widget): (r: Widget)
    ensures r.resend == Cooldown(CooldownStart) && r.(resend := w.resend) == w
  {
    w.(resend := Cooldown(CooldownStart))
  }

  /** A failed resend: the message shown and the button left disabled. */
  function ResendFailed(w: Widget, message: Value): (r: Widget)
    ensures r.resend == Disabled && r.error == Some(message)
    ensures !r.success
    ensures r.(resend := w.resend, error := w.error, success := w.success) == w
  {
    ShowError(w, message).(resend := Disabled)
  }

  /** The response to the resend request: on success the error is hidden, the
      cells cleared and the countdown started; on failure the message is shown,
      no countdown starts and the button stays disabled. */
  function FinishResend(w: Widget, o: Outcome): (r: Widget)
    ensures w.resend != Sending ==> r == w
    ensures w.resend == Sending && o.Resp? && IsOk(o.status) ==>
              r.resend == Cooldown(CooldownStart) && r.error == None && r.cells == Blank && r.focus == 0
    ensures w.resend == Sending && !(o.Resp? && IsOk(o.status)) ==>
              r.resend == Disabled && r.error.Some? && r.cells == w.cells
    ensures w.resend == Sending && o.Threw? ==> r.error == Some(Str("Network error. Please try again."))
    ensures w.resend == Sending && o.Resp? && !IsOk(o.status) ==>
              r.error == Some(OrElse(Field(o.body, "message"), "Failed to resend code. Please try again."))
    ensures w.resend == Sending && o.Resp? && IsOk(o.status) ==>
              r.(resend := w.resend, error := w.error, cells := w.cells, focus := w.focus) == w
    ensures w.resend == Sending && !(o.Resp? && IsOk(o.status)) ==>
              !r.success && r.(resend := w.resend, error := w.error, success := w.success) == w
    ensures r.store == w.store && r.verifyEnabled == w.verifyEnabled
  {
    if w.resend != Sending then w
    else
      match o
      case Threw =>
        ResendFailed(w, Str("Network error. Please try again."))
      case Resp(status, body) =>
        if IsOk(status) then
          StartResendTimer(ClearOtp(w.(error := None)))
        else
          ResendFailed(w, OrElse(Field(body, "message"), "Failed to resend code. Please try again."))
  }

  /** One firing of the countdown interval: the count goes down by one and, on
      reaching zero, the timer stops and the resend button is shown and enabled. */
  function OnTick(w: Widget): (r: Widget)
    ensures w.resend.Cooldown? && w.resend.left > 1 ==> r.resend == Cooldown(w.resend.left - 1)
    ensures w.resend.Cooldown? && w.resend.left <= 1 ==> r.resend == Ready
    ensures !w.resend.Cooldown? ==> r == w
    ensures r.(resend := w.resend) == w
  {
    match w.resend
    case Cooldown(left) => if left - 1 <= 0 then w.(resend := Ready) else w.(resend := Cooldown(left - 1))
    case _ => w
  }

  /** `k` firings of the countdown interval. */
  function Ticks(w: Widget, k: nat): Widget
    decreases k
  {
    if k == 0 then w else OnTick(Ticks(w, k - 1))
  }

  /** From a countdown at `n`, the first `k < n` ticks count it down to `n - k`
      and tick `n` makes the button ready; no tick changes anything else. */
  lemma {:induction false} CountdownSteps(w: Widget, n: nat, k: nat)
    requires w.resend == Cooldown(n) && 1 <= n && k <= n
    ensures Ticks(w, k) == w.(resend := if k == n then Ready else Cooldown(n - k))
    decreases k
  {
    if k > 0 {
      CountdownSteps(w, n, k - 1);
    }
  }

  /** The resend countdown: after each of ticks 1 to 29 the count is 30 minus
      the ticks so far; after exactly 30 ticks it has stopped and later ticks do nothing. */
  lemma {:induction false} CountdownLastsThirtyTicks(w: Widget)
    requires w.resend == Cooldown(CooldownStart)
    ensures forall k :: 0 <= k < 30 ==> Ticks(w, k).resend == Cooldown(30 - k)
    ensures Ticks(w, 30) == w.(resend := Ready)
    ensures Ticks(w, 31) == Ticks(w, 30)
  {
    forall k | 0 <= k < 30
      ensures Ticks(w, k).resend == Cooldown(30 - k)
    {
      CountdownSteps(w, 30, k);
    }
    CountdownSteps(w, 30, 30);
  }

  // ---------------------------------------------------------------------------
  // The whole page

  /** Dispatches an event to its handler. */
  function Apply(w: Widget, e: Event): (r: Step)
    ensures r.request.Some? ==> e.VerifyClick? || e.EnterKey? || e.ResendClick?
  {
    match e
    case Input(i, value) => Step(OnInput(w, i, value), None)
    case KeyDown(i, key) => Step(OnKeyDown(w, i, key), None)
    case Paste(_, text) => Step(OnPaste(w, text), None)
    case VerifyClick => PressVerify(w)
    case EnterKey => PressVerify(w)
    case VerifyDone(o) => Step(FinishVerify(w, o), None)
    case ResendClick => PressResend(w)
    case ResendDone(o) => Step(FinishResend(w, o), None)
    case Tick => Step(OnTick(w), None)
  }

  /** A paste keeps every cell empty or a single digit. */
  lemma PasteKeepsWellFormed(w: Widget, text: string)
    requires WellFormed(w)
    ensures WellFormed(OnPaste(w, text))
  {
    var code := Trim(text);
    if IsSixDigits(code) {
      var r := OnPaste(w, text);
      forall i | 0 <= i < 6
        ensures IsOneDigit(r.cells[i])
      {
        assert r.cells[i] == [code[i]];
      }
    }
  }

  /** A state whose cells are the old ones or blank, and whose countdown is the
      old one or a fresh one, is well formed when the old state is. */
  lemma KeepsWellFormed(w: Widget, r: Widget)
    requires WellFormed(w)
    requires r.cells == w.cells || r.cells == Blank
    requires r.resend == w.resend || !r.resend.Cooldown? || r.resend == Cooldown(CooldownStart)
    ensures WellFormed(r)
  {
  }

  /** An edit keeps every cell empty or a single digit. */
  lemma InputKeepsWellFormed(w: Widget, i: Cell, value: string)
    requires WellFormed(w)
    ensures WellFormed(OnInput(w, i, value))
  {
    var r := OnInput(w, i, value);
    assert r.resend == w.resend;
    forall j | 0 <= j < 6
      ensures r.cells[j] == "" || IsOneDigit(r.cells[j])
    {
      if j != i {
        assert r.cells[j] == w.cells[j];
      }
    }
  }

  /** Every event keeps every cell empty or a single digit. */
  lemma ApplyPreservesWellFormed(w: Widget, e: Event)
    requires WellFormed(w)
    ensures WellFormed(Apply(w, e).widget)
  {
    var r := Apply(w, e).widget;
    match e
    case Paste(_, text) => PasteKeepsWellFormed(w, text);
    case Input(i, value) => InputKeepsWellFormed(w, i, value);
    case KeyDown(i, key) => KeepsWellFormed(w, r);
    case VerifyClick => KeepsWellFormed(w, r);
    case EnterKey => KeepsWellFormed(w, r);
    case VerifyDone(o) => KeepsWellFormed(w, r);
    case ResendClick => KeepsWellFormed(w, r);
    case ResendDone(o) => KeepsWellFormed(w, r);
    case Tick =>
  }

  /** Once a resend has failed, no event ever enables the resend button again. */
  lemma FailedResendIsFinal(w: Widget, e: Event)
    requires w.resend == Disabled
    ensures Apply(w, e).widget.resend == Disabled
    ensures Apply(w, e).request.Some? ==> Apply(w, e).request.value.path == "/auth/cognito-verify-email"
  {
  }

  /** Typing digits one after another, each into the cell that has focus. */
  function TypeDigits(w: Widget, digits: string): Widget
    decreases |digits|
  {
    if digits == [] then w else TypeDigits(OnInput(w, w.focus, [digits[0]]), digits[1..])
  }

  /** One typed digit lands in the focused cell and moves focus along. */
  lemma TypeOneDigit(w: Widget, c: char)
    requires IsDigit(c)
    ensures var next := OnInput(w, w.focus, [c]);
            && next.cells == w.cells[w.focus := [c]]
            && next.focus == (if w.focus < 5 then w.focus + 1 else w.focus)
            && (next.verifyEnabled <==> Filled(next.cells))
  {
    assert IsOneDigit([c]);
  }

  /** Typing `k` digits from focus `f` fills cells `f` to `f + k - 1` with them,
      leaves the other cells alone, and moves focus along, stopping at the last cell. */
  lemma {:induction false} TypeDigitsFills(w: Widget, digits: string)
    requires AllDigits(digits) && w.focus + |digits| <= 6
    ensures var r := TypeDigits(w, digits);
            && (forall j :: 0 <= j < |digits| ==> r.cells[w.focus + j] == [digits[j]])
            && (forall j :: 0 <= j < 6 && !(w.focus <= j < w.focus + |digits|) ==> r.cells[j] == w.cells[j])
            && r.focus == (if w.focus + |digits| == 6 then 5 else w.focus + |digits|)
            && (digits != [] ==> (r.verifyEnabled <==> Filled(r.cells)))
    decreases |digits|
  {
    if digits != [] {
      var c := digits[0];
      TypeOneDigit(w, c);
      var next := OnInput(w, w.focus, [c]);
      var rest := digits[1..];
      assert TypeDigits(w, digits) == TypeDigits(next, rest);
      if rest != [] {
        assert AllDigits(rest);
        TypeDigitsFills(next, rest);
        FillsExtend(w, next, TypeDigits(next, rest), digits);
      }
    }
  }

  /** The inductive step of `TypeDigitsFills`: one digit typed at `w`'s focus,
      then the rest of them from the next cell on. */
  lemma FillsExtend(w: Widget, next: Widget, r: Widget, digits: string)
    requires 2 <= |digits| && w.focus + |digits| <= 6 && |w.cells| == 6
    requires next.cells == w.cells[w.focus := [digits[0]]] && next.focus == w.focus + 1
    requires forall j :: 0 <= j < |digits| - 1 ==> r.cells[next.focus + j] == [digits[1..][j]]
    requires forall j :: 0 <= j < 6 && !(next.focus <= j < next.focus + |digits| - 1) ==> r.cells[j] == next.cells[j]
    ensures forall j :: 0 <= j < |digits| ==> r.cells[w.focus + j] == [digits[j]]
    ensures forall j :: 0 <= j < 6 && !(w.focus <= j < w.focus + |digits|) ==> r.cells[j] == w.cells[j]
  {
    forall j | 0 <= j < |digits|
      ensures r.cells[w.focus + j] == [digits[j]]
    {
      if j > 0 {
        assert digits[1..][j - 1] == digits[j];
      }
    }
  }

  /** Typing a six-digit code into a cleared page, starting in the first cell,
      enables verify and yields exactly that code. */
  lemma TypingSixDigitsCompletes(w: Widget, code: string)
    requires IsSixDigits(code) && w.focus == 0
    ensures var r := TypeDigits(w, code);
            r.verifyEnabled && r.focus == 5 && OtpValue(r.cells) == code
  {
    TypeDigitsFills(w, code);
    var r := TypeDigits(w, code);
    assert forall j :: 0 <= j < 6 ==> r.cells[j] == [code[j]];
    ConcatOfSingles(r.cells);
  }

  /** A failed verification leaves a page on which pressing verify again only
      shows the local "all 6 digits" error until a full code is entered. */
  lemma RetryAfterFailedVerifyIsLocal(w: Widget, o: Outcome)
    requires !(o.Resp? && IsOk(o.status))
    ensures var after := FinishVerify(w, o);
            after.verifyEnabled && PressVerify(after).request == None &&
            PressVerify(after).widget.error == Some(Str("Please enter all 6 digits"))
  {
    var after := FinishVerify(w, o);
    assert Concat(after.cells) == "";
  }

  // ---------------------------------------------------------------------------
  // Page load

  /** `urlParams.get('email') || localStorage.getItem('verifyEmail') || 'your email'`. */
  function UserEmail(param: Option<string>, st: Store): (r: string)
    ensures param.Some? && param.value != "" ==> r == param.value
    ensures !(param.Some? && param.value != "") && HasItem(st, VerifyEmailKey) ==> r == st[VerifyEmailKey]
    ensures !(param.Some? && param.value != "") && !HasItem(st, VerifyEmailKey) ==> r == "your email"
  {
    if param.Some? && param.value != "" then param.value
    else if HasItem(st, VerifyEmailKey) then st[VerifyEmailKey]
    else "your email"
  }

  /** The page as loaded: empty cells, the first focused, and the countdown
      started only when the session flag was not yet set; the flag is set after.
      The buttons' initial enablement comes from the markup: the verify button's
      is a parameter, the resend button is taken to start enabled. */
  function Load(param: Option<string>, st: Store, timerStartedThisSession: bool, verifyEnabledInMarkup: bool)
    : (r: (Widget, bool))
    ensures r.0.cells == Blank && r.0.focus == 0 && r.0.store == st
    ensures r.0.resend == if timerStartedThisSession then Ready else Cooldown(CooldownStart)
    ensures r.0.email == UserEmail(param, st)
    ensures r.0.verifyEnabled == verifyEnabledInMarkup
    ensures r.0.error == None && !r.0.loading && !r.0.success && !r.0.redirect
    ensures WellFormed(r.0)
    ensures r.1
  {
    var w := Widget(UserEmail(param, st), Blank, 0, verifyEnabledInMarkup, false, None, false, false, Ready, st);
    if timerStartedThisSession then (w, true) else (StartResendTimer(w), true)
  }
}

=== FILE: web_storage.dfy ===
/** Browser `localStorage` as a value: a map from key to stored string. */
module WebStorage {
  import opened Optional

  type Store = map<string, string>

  /** The key under which every page of the site keeps the access token. */
  const AuthTokenKey := "authToken"

  /** `localStorage.getItem(key)`: the stored string, or `null`. */
  function GetItem(st: Store, key: string): Option<string> {
    Lookup(st, key)
  }

  /** `if (localStorage.getItem(key))`: present and not the empty string. */
  predicate HasItem(st: Store, key: string) {
    key in st && st[key] != ""
  }

  /** `localStorage.setItem(key, value)`: `key` now holds `value`, every other key is as it was. */
  function SetItem(st: Store, key: string, value: string): (r: Store)
    ensures GetItem(r, key) == Some(value)
    ensures forall k :: k != key ==> GetItem(r, k) == GetItem(st, k)
  {
    st[key := value]
  }

  /** `localStorage.removeItem(key)`: `key` is gone, every other key is as it was. */
  function RemoveItem(st: Store, key: string): (r: Store)
    ensures GetItem(r, key) == None
    ensures forall k :: k != key ==> GetItem(r, k) == GetItem(st, k)
  {
    st - {key}
  }

  /** Two stores agree on every key outside `keys`. */
  ghost predicate SameOutside(a: Store, b: Store, keys: set<string>) {
    forall k :: k !in keys ==> GetItem(a, k) == GetItem(b, k)
  }
}
